=== FILE: README.md ===
# Live quiz back end, modelled in Dafny

This project models the server side of the quiz-management application. It covers:

- the live multiplayer quiz:
  - the room document with its participant list, leaderboard and capacity rule (`models/LiveQuiz.js`);
  - the socket handlers that run a session: join the room channel, start, submit an answer, read the leaderboard, and the timer-driven question loop (`socket/liveQuizSocket.js`);
  - the REST routes that create, join, list and leave rooms (`routes/liveQuiz.js`);
- the single-player quiz:
  - the public quiz view and the grading of a submitted attempt (`routes/public.js`);
  - the validation of a quiz an administrator registers (`routes/admin.js`).

All state is immutable data. Each handler is a pure function from the stored room (or the store, a sequence of rooms) to:

- the room or store it saves;
- the events it emits;
- the timer it arms.

A timer is only a value (`Session.Timer`). When it fires is chosen by the environment. `SessionTrace` makes this a transition system: requests and timer firings are events, in any order the environment can produce. Over that system it proves:

- every reachable room satisfies the room invariant `LiveQuiz.Valid`;
- the question index never moves back;
- with non-negative `pointsForCorrect`, no participant's score drops.

Modules, one per file:

| file | module | models |
|---|---|---|
| `wrappers.dfy` | `Wrappers` | `Option`, `Result` |
| `text.dfy` | `Text` | JavaScript `trim`, `toLowerCase`, `toUpperCase` |
| `stable_sort.dfy` | `StableSort` | the stable descending sort `Array.prototype.sort` performs |
| `quiz.dfy` | `QuizContent` | the stored quiz and its questions (`models/Quiz.js`) |
| `live_quiz.dfy` | `LiveQuiz` | the room, `addParticipant`, `removeParticipant`, `getLeaderboard`, the room invariant |
| `scoring.dfy` | `Scoring` | live correctness and points with the speed bonus |
| `session.dfy` | `Session` | the socket handlers and the timer callbacks |
| `session_trace.dfy` | `SessionTrace` | events, traces, invariant preservation, a worked session |
| `rooms.dfy` | `Rooms` | the REST room routes |
| `grading.dfy` | `Grading` | the public quiz view and `submit-quiz` |
| `validation.dfy` | `QuizValidation` | `register-quiz` validation |

Behaviour worth knowing:

- Live answers are lower-cased but not trimmed (`Scoring.LiveDoesNotTrim`), unlike the self-paced grading, which trims and lower-cases (`Grading.Normalize`).
- When the host leaves, the new host is the first remaining entry of the participant array. Entries are only ever appended, so that entry is the earliest joiner still present (`Rooms.LeaveHandsToEarliest`).
- The status enum keeps `in-progress`. No code sets it, and `LiveQuiz.Valid` excludes it.
- The ranking is the stable sort by descending score, so ties keep join order.

## Model

| member | source | states |
|---|---|---|
| LiveQuiz.FindParticipant | quiz-back-end/models/LiveQuiz.js:64 | finds the first participant with the id; absent exactly when nobody has it |
| LiveQuiz.AddParticipant | quiz-back-end/models/LiveQuiz.js:62-82 | an id already present is refused; otherwise a full room is refused; otherwise the user is appended with score 0 and no answers, and nothing else changes |
| LiveQuiz.AddKeepsCapacityAndIds | quiz-back-end/models/LiveQuiz.js:69-79 | after a successful add the room is within capacity, ids stay unique and the user is in it |
| LiveQuiz.AddKeepsValid | quiz-back-end/models/LiveQuiz.js:62-82 | a successful add preserves the room invariant |
| LiveQuiz.RemoveParticipant | quiz-back-end/models/LiveQuiz.js:85-87 | the id is gone; every other entry is kept and nothing new appears; removing an absent id changes nothing |
| LiveQuiz.RemoveSplits | quiz-back-end/models/LiveQuiz.js:86 | filtering distributes over concatenation, so survivors keep their relative order |
| LiveQuiz.RemoveDropsOne | quiz-back-end/models/LiveQuiz.js:86 | with unique ids, removing a present id shortens the list by exactly one |
| LiveQuiz.RemoveKeepsUnique | quiz-back-end/models/LiveQuiz.js:86 | removal keeps ids unique |
| LiveQuiz.RemoveFirstSurvivor | quiz-back-end/models/LiveQuiz.js:86 | the first survivor is the earliest entry whose id differs from the removed one |
| LiveQuiz.Leaderboard | quiz-back-end/models/LiveQuiz.js:90-98 | every participant appears once; ranks are 1, 2, 3, …; scores never increase down the list; it is the stable descending reordering of the participants |
| LiveQuiz.LeaderboardIsTheStableRanking | quiz-back-end/models/LiveQuiz.js:91-92 | any stable descending ranking of the participants equals the leaderboard, so the leaderboard is unique |
| LiveQuiz.UniqueLeaderFirst | quiz-back-end/models/LiveQuiz.js:90-98 | a participant with strictly the highest score is ranked 1 |
| LiveQuiz.LeaderboardTieExample | quiz-back-end/models/LiveQuiz.js:91-97 | scores 30, 30, 50 in join order A, B, C rank C, A, B |
| StableSort.Insert | quiz-back-end/models/LiveQuiz.js:92 | inserting into a non-increasing list gives a non-increasing permutation |
| StableSort.SortDesc | quiz-back-end/models/LiveQuiz.js:92 | the result is non-increasing in the key, is a permutation, and keeps each equal-key class in input order |
| StableSort.StableDescUnique | quiz-back-end/models/LiveQuiz.js:92 | two stable descending reorderings of the same list are equal |
| StableSort.PrefixKeepsLargest | quiz-back-end/routes/liveQuiz.js:132-133 | an element cut off by a limit on a non-increasing list has a key no larger than any kept element |
| Scoring.FloorDiv | quiz-back-end/socket/liveQuizSocket.js:162 | the result is the mathematical floor of the quotient for either sign of divisor |
| Scoring.SpeedBonus | quiz-back-end/socket/liveQuizSocket.js:160-162 | the bonus is the floor of the remaining fraction of the limit times 50 when that is positive, and 0 otherwise |
| Scoring.SpeedBonusBounded | quiz-back-end/socket/liveQuizSocket.js:162 | for a positive limit and a non-negative elapsed time, the bonus lies in 0..50 |
| Scoring.SpeedBonusAtZero | quiz-back-end/socket/liveQuizSocket.js:162 | an instant answer earns the full 50 |
| Scoring.SpeedBonusAfterLimit | quiz-back-end/socket/liveQuizSocket.js:162 | an answer at or after the limit earns no bonus |
| Scoring.SpeedBonusNonIncreasing | quiz-back-end/socket/liveQuizSocket.js:160-162 | a later answer never earns a larger bonus |
| Scoring.LiveDoesNotTrim | quiz-back-end/socket/liveQuizSocket.js:151 | comparison ignores case but not blanks: "4 " is wrong for "4", "Paris" is right for "PARIS" |
| Scoring.Points | quiz-back-end/socket/liveQuizSocket.js:153-165 | a wrong answer earns 0; a right one earns `pointsForCorrect`, plus the speed bonus when the bonus is on, so at most 50 more |
| Scoring.DefaultScoringExample | quiz-back-end/socket/liveQuizSocket.js:153-165 | with 100 points, bonus on and 30 s: 150 at once, 125 after 15 s, 100 at the limit, 0 when wrong |
| Scoring.SpeedBonusAtHalf | quiz-back-end/socket/liveQuizSocket.js:160-162 | an answer after 15 s of a 30 s limit earns a bonus of 25 |
| Session.AnsweredCount | quiz-back-end/socket/liveQuizSocket.js:189-193 | the count is at most the number of participants, and equals it exactly when every participant answered the question |
| Session.AnsweredCountIsTheNumberAnswered | quiz-back-end/socket/liveQuizSocket.js:304-306 | the count is the size of the set of positions whose participant has an answer for the question |
| Session.JoinLiveQuiz | quiz-back-end/socket/liveQuizSocket.js:32-76 | a missing room and a non-participant are rejected with their messages; otherwise the snapshot reports the room's status, index, question count, each participant's name and score, and whether the sender is host |
| Session.StartQuiz | quiz-back-end/socket/liveQuizSocket.js:81-122 | succeeds exactly for the host of a waiting room; only the status and `startedAt` change, and the first question is armed 3 s later |
| Session.SubmitAnswer | quiz-back-end/socket/liveQuizSocket.js:127-204 | rejects outside an active question, from non-participants, and for a second answer, and fails when the current question has no answer key; succeeds exactly when none of these applies; an accepted answer appends one record with its points to the sender only, adds those points to the score, and arms the 2 s early end exactly when everyone has answered |
| Session.GetLeaderboard | quiz-back-end/socket/liveQuizSocket.js:209-226 | a missing room is rejected and any existing room succeeds, in every status; the reply ranks every participant once from 1, scores never increase down the list, and ties keep join order |
| Session.EndQuiz | quiz-back-end/socket/liveQuizSocket.js:326-351 | the room is finished at the given time, everyone is ranked, the question count reported is the last index plus one, and deletion is armed 5 minutes later |
| Session.StartNextQuestion | quiz-back-end/socket/liveQuizSocket.js:245-286 | past the last question it ends the quiz; otherwise it activates the next index, broadcasts that question and arms the question timer; the index never decreases |
| Session.Top | quiz-back-end/socket/liveQuizSocket.js:308 | the first five entries, or all when fewer |
| Session.EndCurrentQuestion | quiz-back-end/socket/liveQuizSocket.js:291-321 | changes nothing unless a question is active; otherwise moves to review and reports the correct answer, how many answered out of how many, and the top five |
| Session.EndQuestionIdempotent | quiz-back-end/socket/liveQuizSocket.js:294 | ending a question a second time changes nothing and emits nothing |
| SessionTrace.StartKeepsValid | quiz-back-end/socket/liveQuizSocket.js:97-105 | starting preserves the room invariant |
| SessionTrace.RecordKeepsParticipantOk | quiz-back-end/socket/liveQuizSocket.js:168-177 | appending a record for an unanswered question and adding its points keeps the score equal to the recorded points and one answer per question |
| SessionTrace.SubmitKeepsValid | quiz-back-end/socket/liveQuizSocket.js:144-177 | an accepted answer preserves the invariant: score equals recorded points, at most one answer per question |
| SessionTrace.NextKeepsValid | quiz-back-end/socket/liveQuizSocket.js:250-262 | advancing from starting or review preserves the invariant, including finishing with the last index |
| SessionTrace.EndKeepsValid | quiz-back-end/socket/liveQuizSocket.js:294-297 | ending a question preserves the invariant |
| SessionTrace.StepKeepsValid | quiz-back-end/socket/liveQuizSocket.js:81-351 | every event the environment can produce keeps a valid room valid or deletes it |
| SessionTrace.StepIndexForward | quiz-back-end/socket/liveQuizSocket.js:250-259 | no event moves the question index back |
| SessionTrace.StepScoresNeverDrop | quiz-back-end/socket/liveQuizSocket.js:154-177 | with non-negative `pointsForCorrect`, no event lowers the score of a participant who stays |
| SessionTrace.SubmitScoresNeverDrop | quiz-back-end/socket/liveQuizSocket.js:168-177 | an accepted answer never lowers anyone's score when correct answers earn a non-negative amount |
| SessionTrace.JoinScoresKept | quiz-back-end/routes/liveQuiz.js:91-97 | a join leaves every existing participant's score unchanged |
| SessionTrace.LeaveScoresKept | quiz-back-end/routes/liveQuiz.js:215 | a leave leaves every remaining participant's score unchanged |
| SessionTrace.RunKeepsValid | quiz-back-end/socket/liveQuizSocket.js:81-351 | from a valid room, every sequence of events ends in a valid room or a deleted one, with the index no earlier |
| SessionTrace.SampleOpens | quiz-back-end/socket/liveQuizSocket.js:97-116 | in the sample, the host's start leads to starting and the countdown opens question 0 |
| SessionTrace.SampleHostAnswers | quiz-back-end/socket/liveQuizSocket.js:150-198 | an instant right answer earns 150, and with the guest still to answer no early-end timer is armed |
| SessionTrace.SampleGuestAnswers | quiz-back-end/socket/liveQuizSocket.js:189-198 | the last participant's wrong answer earns 0 and arms the early end |
| SessionTrace.SampleRanking | quiz-back-end/socket/liveQuizSocket.js:336 | the final leaderboard ranks the host first on 150 |
| SessionTrace.OneQuestionSession | quiz-back-end/socket/liveQuizSocket.js:81-351 | one question, two participants: start, two answers, early end and advance reach `finished` directly |
| Rooms.OrDefault | quiz-back-end/routes/liveQuiz.js:37-40 | a missing or zero number takes the default, any other is kept |
| Rooms.NewRoom | quiz-back-end/routes/liveQuiz.js:31-44 | the room starts waiting before the first question, with no participants; each setting is given or defaulted as `\|\|` and `!== false` decide |
| Rooms.PickRoomCode | quiz-back-end/routes/liveQuiz.js:21-28 | the chosen code is the first draw no stored room uses; no code only when every draw is taken |
| Rooms.CreateRoom | quiz-back-end/routes/liveQuiz.js:11-68 | 404 for a missing quiz, 500 for the other failures; on success one room is appended with a fresh code and the host as sole participant; the new room satisfies the invariant, and codes and ids stay unique |
| Rooms.FindByCode | quiz-back-end/routes/liveQuiz.js:82 | finds the first room with the code; absent exactly when no room has it |
| Rooms.FindById | quiz-back-end/routes/liveQuiz.js:210 | finds the first room with the id, with no earlier room having it; absent exactly when no room has it |
| Rooms.JoinRoom | quiz-back-end/routes/liveQuiz.js:74-118 | a missing code, an unknown upper-cased code, a started room, a repeat join and a full room each give their message, with 404 only for the unknown code and 400 otherwise; a request past all of these succeeds and adds the user to that one room |
| Rooms.JoinRoomKeepsStore | quiz-back-end/routes/liveQuiz.js:82-97 | a successful join changes only the room with that code; that room stays valid, and every room keeps its code and id, so both stay unique |
| Rooms.ListableRooms | quiz-back-end/routes/liveQuiz.js:126-129 | exactly the waiting rooms with participants |
| Rooms.ListableCounts | quiz-back-end/routes/liveQuiz.js:126-129 | the query keeps each waiting room with participants exactly as often as it is stored, and no other room |
| Rooms.ActiveRooms | quiz-back-end/routes/liveQuiz.js:124-133 | at most 20 listable rooms, newest first, none shown more often than it is stored; a listable room left out is no newer than any room shown |
| Rooms.Summaries | quiz-back-end/routes/liveQuiz.js:135-144 | one summary per room, with the participant count |
| Rooms.Leave | quiz-back-end/routes/liveQuiz.js:215-228 | the user is removed; a leaving host hands over to the first remaining participant; an emptied room is deleted whatever its status |
| Rooms.LeaveHandsToEarliest | quiz-back-end/routes/liveQuiz.js:217-222 | the new host is the earliest joiner other than the one who left |
| Rooms.LeaveKeepsValid | quiz-back-end/routes/liveQuiz.js:215-222 | leaving preserves the invariant, so the host is always a participant |
| Rooms.LeaveRoom | quiz-back-end/routes/liveQuiz.js:206-236 | 404 exactly for an unknown room, and any stored room succeeds; the room is either saved with the change or removed from the store |
| Rooms.LeaveRoomKeepsStore | quiz-back-end/routes/liveQuiz.js:206-231 | leaving keeps the store's codes and ids unique, a deleted room's id is no longer in the store, and a room that remains stays valid |
| Grading.QuestionPoints | quiz-back-end/routes/public.js:118 | a question's worth is its points, or 1 when missing or zero |
| Grading.Normalize | quiz-back-end/routes/public.js:129 | the result is trimmed and has no capital letters; a missing value becomes empty |
| Grading.NormalizeIdempotent | quiz-back-end/routes/public.js:129 | normalizing twice is normalizing once |
| Grading.NormalizeIgnoresPadding | quiz-back-end/routes/public.js:129 | surrounding whitespace does not change the normalized answer |
| Grading.NormalizeIgnoresCase | quiz-back-end/routes/public.js:129 | two answers that differ only in letter case normalize alike |
| Grading.NormalizeOfUpper | quiz-back-end/routes/public.js:129 | an answer typed in capitals normalizes like the original |
| Grading.NormalizeOfPlain | quiz-back-end/routes/public.js:129 | a string with no surrounding blanks and no capitals is already normal, whatever blanks it holds inside; with the padding and case lemmas this fixes the result as the lower-cased trim |
| Grading.NormalizeKeepsInnerBlanks | quiz-back-end/routes/public.js:129 | the blank between two words survives, so the words written together never match the words written apart |
| Grading.GradeOne | quiz-back-end/routes/public.js:110-145 | an index outside the quiz is reported invalid with 0; a question without an answer earns 0; otherwise the question's points exactly when the normalized answers match |
| Grading.GradingIgnoresType | quiz-back-end/routes/public.js:131-141 | every question type grades the same way |
| Grading.GradeAll | quiz-back-end/routes/public.js:110-146 | one detail per submitted answer, in order |
| Grading.SubmitQuiz | quiz-back-end/routes/public.js:98-171 | the grading handler: missing input is 400 and a missing quiz is 404; a request with both for a stored quiz is always graded, the score being the sum of points earned and the total the quiz's total |
| Grading.Dispatch | quiz-back-end/routes/public.js:65-98 | the first handler for the path that does not pass the request on decides it, replying or leaving it pending; nothing decides only when all pass it on |
| Grading.SubmitQuizAsRegistered | quiz-back-end/routes/public.js:65-67 | with the empty placeholder registered first, no submit-quiz request is ever answered |
| Grading.SubmitQuizAsIntended | quiz-back-end/routes/public.js:97-98 | with only the grading handler registered, every request is answered by it |
| Grading.PlaceholderShadowsGrading | quiz-back-end/routes/public.js:65-98 | a complete request for a stored quiz that the grading handler would grade stays pending as registered |
| Grading.ScoreAtMostTotal | quiz-back-end/routes/public.js:106-146 | with distinct question indices and non-negative points, the score never exceeds the total |
| Grading.RepeatedIndexScoresTwice | quiz-back-end/routes/public.js:110-146 | a repeated question index is graded each time, so the score can exceed the total |
| Grading.NegativePointsBreakTheBound | quiz-back-end/routes/public.js:106 | with a negative question value the score can exceed the total |
| Grading.PublicView | quiz-back-end/routes/public.js:31-42 | each question keeps its text and type, its options or none, and its worth, and never carries the correct answer |
| Grading.PublicPointsMatchTotal | quiz-back-end/routes/public.js:40 | the worths the public view shows add up to the total used for grading |
| QuizValidation.QuestionProblem | quiz-back-end/routes/admin.js:36-40 | no problem exactly when the question has text, a known type, and, for MCQ, at least two options; a problem names its index |
| QuizValidation.Validate | quiz-back-end/routes/admin.js:28-41 | a bad title or question list is reported first; otherwise acceptance exactly when every question passes, else the first failing index with its problem |
| Text.Trim | quiz-back-end/routes/public.js:129 | the result has no leading or trailing whitespace and is no longer than the input |
| Text.TrimIdempotent | quiz-back-end/routes/public.js:129 | trimming twice is trimming once |
| Text.TrimIgnoresPadding | quiz-back-end/routes/public.js:129 | whitespace added on either side does not change the trimmed result |
| Text.TrimIgnoresLeading | quiz-back-end/routes/public.js:129 | leading whitespace does not change the trimmed result |
| Text.TrimIgnoresTrailing | quiz-back-end/routes/public.js:129 | trailing whitespace does not change the trimmed result |
| Text.LowerIdempotent | quiz-back-end/socket/liveQuizSocket.js:151 | lower-casing twice is lower-casing once |
| Text.UpperIdempotent | quiz-back-end/routes/liveQuiz.js:82 | upper-casing twice is upper-casing once |
| Text.LowerOfUpper | quiz-back-end/routes/public.js:129 | lower-casing undoes an earlier upper-casing |
| Text.LowerTrimCommute | quiz-back-end/routes/public.js:129 | trimming and lower-casing commute |

## Left out

- Socket.IO transport, JWT authentication (`io.use`, the `auth` middleware), and the `participant-joined`/`participant-disconnected` fan-out: the sender is an authenticated user id, and the emitted events are values.
- The `disconnect` handler: it only notifies the rest of the room and changes no state.
- Real timers and concurrency: `SessionTrace.Enabled` lets an armed timer fire at any later point, and in any order with requests. Handlers run atomically, so lost updates between concurrent saves are not modelled.
- Wall-clock time: times are integers supplied by the caller. In a trace the elapsed time of an answer is derived from the event's time and the room's `questionStartTime` (`Session.ElapsedMs`); `Session.SubmitAnswer` itself takes it as a parameter in milliseconds.
- Mongoose persistence, `populate`, ObjectId conversion and `save` failures: the store is a sequence of rooms; a failed save is not modelled. It would answer 400 on POST /join-room, whose inner `catch` covers `addParticipant` and `save`, and 500 on the other HTTP routes. A socket handler reports it with an `error` event instead, and a timer callback only logs it.
- `generateRoomCode` randomness: the random draws are a finite list of candidate codes.
- Rooms.CreateRoom: when every candidate is taken it reports `CodeSpaceExhausted`, where the source keeps drawing forever.
- The in-place sort done by `getLeaderboard`: it reorders the participant array, but no code saves the room after calling it, so only the returned ranking is modelled.
- GET `/room/:roomId` (room details): a read-only projection, not modelled.
- The quiz list route, `auth.js`, `User`, `Attempt` persistence, `server.js` and both front ends.
- Scoring.SpeedBonus: uses exact rational arithmetic on whole milliseconds where the source divides floating-point seconds. The floating-point rounding at exact boundaries is not modelled. A zero limit gives 0 (JavaScript gives 0 for a positive elapsed time). A negative limit can yield a bonus above 50, as in the source.
- Text.Lower: maps ASCII letters only; JavaScript's full Unicode case mapping is not modelled.
- Text.Upper: maps ASCII letters only, for the same reason.
- Grading.ScoreAtMostTotal: requires distinct question indices and non-negative question points, because the route enforces neither; the two counterexample lemmas show why.
- Grading.SubmitQuiz: models only the grading handler at public.js:98-171. As registered, the placeholder at public.js:65-67 shadows it and the route never replies (see Findings).
- Rooms.Summaries: assumes each listed room's participants are loaded. The route's `.select(...)` projection leaves out `participants` while the mapping reads `participants.length`. If the projection really leaves that path unloaded, the route would answer 500 whenever a room is listed. Mongoose's projection behaviour is not modelled.
- Grading.SubmitQuiz: `String(...)` coercion of non-string answers and the exact shape of the `Attempt` document are not modelled; answers are strings or missing.
- QuizValidation.Validate: reports the error kind and index, not the interpolated message text.
- The live mode scores with the room's `pointsForCorrect` and ignores a question's own `points`, as the source does; this is modelled, not changed.
- Rooms.CreateRoom: requires a `roomId` no stored room has, because the datastore generates every id fresh; id generation itself is not modelled.

## Findings

| source | as written | input that shows it | evidently intended | confidence | as-written member | corrected member |
|---|---|---|---|---|---|---|
| quiz-back-end/routes/public.js:65-67 | an empty `POST /submit-quiz` handler is registered before the grading handler for the same path; it neither replies nor calls `next`, so Express never reaches the grading handler | any complete request, e.g. a non-empty quiz id, an empty answers array and a stored quiz | the later handler replaces the placeholder (its comment at public.js:97 says so), and the request is graded | high, not executed | Grading.SubmitQuizAsRegistered (exhibited by Grading.PlaceholderShadowsGrading) | Grading.SubmitQuizAsIntended |

=== FILE: grading.dfy ===
/**
 * Self-paced quizzes (quiz-back-end/routes/public.js): grading a submitted
 * attempt and the public view of a quiz that hides the answers.
 */
module Grading {
  import opened Wrappers
  import opened QuizContent
  import Text

  datatype SubmittedAnswer = SubmittedAnswer(questionIndex: int, answer: Option<string>)

  /** One entry of the reply's `details`, one per submitted answer. */
  datatype Detail =
    | InvalidIndex(questionIndex: int)
    | NoCorrectAnswer(questionIndex: int, givenAnswer: Option<string>)
    | Graded(questionIndex: int, correct: bool, correctAnswer: string, givenAnswer: Option<string>,
             pointsEarned: int)

  datatype Report = Report(score: int, total: int, details: seq<Detail>)

  datatype GradeError = MissingInput | QuizNotFound

  function ErrorMessage(e: GradeError): string
  {
    match e
    case MissingInput => "quizId and answers array required"
    case QuizNotFound => "Quiz not found"
  }

  function PointsEarned(d: Detail): int
  {
    if d.Graded? then d.pointsEarned else 0
  }

  /** `q.points || 1`. */
  function QuestionPoints(q: Question): (p: int)
    ensures p != 0
    ensures q.points.Some? && q.points.value != 0 ==> p == q.points.value
    ensures q.points.None? || q.points == Some(0) ==> p == 1
  {
    if q.points.Some? && q.points.value != 0 then q.points.value else 1
  }

  /** The attempt's `total`: every question's points, whatever was answered. */
  function Total(qs: seq<Question>): int
  {
    if |qs| == 0 then 0 else QuestionPoints(qs[0]) + Total(qs[1..])
  }

  /** `normalize`: a missing value is empty, anything else is trimmed and lower-cased. */
  function Normalize(v: Option<string>): (r: string)
    ensures v.None? ==> r == ""
    ensures Text.IsTrimmed(r)
    ensures forall i :: 0 <= i < |r| ==> !('A' <= r[i] <= 'Z')
  {
    if v.None? then ""
    else
      Text.LowerTrimCommute(v.value);
      Text.LowerIdempotent(Text.Trim(v.value));
      Text.Lower(Text.Trim(v.value))
  }

  /** Normalizing twice is normalizing once. */
  lemma NormalizeIdempotent(v: Option<string>)
    ensures Normalize(Some(Normalize(v))) == Normalize(v)
  {
    if v.Some? {
      var n := Normalize(v);
      Text.TrimOfTrimmed(n);
      Text.LowerIdempotent(Text.Trim(v.value));
    }
  }

  /** Surrounding blanks never change the normalized form. */
  lemma NormalizeIgnoresPadding(before: string, s: string, after: string)
    requires Text.AllWhitespace(before) && Text.AllWhitespace(after)
    ensures Normalize(Some(before + s + after)) == Normalize(Some(s))
  {
    Text.TrimIgnoresPadding(before, s, after);
  }

  /** Strings that differ only in letter case normalize alike. */
  lemma NormalizeIgnoresCase(a: string, b: string)
    requires Text.Lower(a) == Text.Lower(b)
    ensures Normalize(Some(a)) == Normalize(Some(b))
  {
    Text.LowerTrimCommute(a);
    Text.LowerTrimCommute(b);
  }

  /** In particular an answer typed in capitals normalizes like the original. */
  lemma NormalizeOfUpper(s: string)
    ensures Normalize(Some(Text.Upper(s))) == Normalize(Some(s))
  {
    Text.LowerOfUpper(s);
    NormalizeIgnoresCase(Text.Upper(s), s);
  }

  /** Grades one answer; the comparison is the same for every question type. */
  function GradeOne(qs: seq<Question>, a: SubmittedAnswer): (d: Detail)
    ensures !(0 <= a.questionIndex < |qs|) ==> d == InvalidIndex(a.questionIndex)
    ensures 0 <= a.questionIndex < |qs| && qs[a.questionIndex].correctAnswer.None? ==>
              d == NoCorrectAnswer(a.questionIndex, a.answer)
    ensures 0 <= a.questionIndex < |qs| && qs[a.questionIndex].correctAnswer.Some? ==>
      var q := qs[a.questionIndex];
      && d.Graded? && d.questionIndex == a.questionIndex && d.givenAnswer == a.answer
      && d.correctAnswer == q.correctAnswer.value
      && (d.correct <==> Normalize(a.answer) == Normalize(q.correctAnswer))
      && d.pointsEarned == (if d.correct then QuestionPoints(q) else 0)
    ensures d.questionIndex == a.questionIndex
  {
    var idx := a.questionIndex;
    if !(0 <= idx < |qs|) then InvalidIndex(idx)
    else
      var q := qs[idx];
      if q.correctAnswer.None? then NoCorrectAnswer(idx, a.answer)
      else
        var correct := match q.qtype
          case MCQ => Normalize(a.answer) == Normalize(q.correctAnswer)
          case Boolean => Normalize(a.answer) == Normalize(q.correctAnswer)
          case Text => Normalize(a.answer) == Normalize(q.correctAnswer);
        Graded(idx, correct, q.correctAnswer.value, a.answer, if correct then QuestionPoints(q) else 0)
  }

  /** Changing a question's type never changes how an answer to it is graded. */
  lemma GradingIgnoresType(qs: seq<Question>, a: SubmittedAnswer, t: QuestionType)
    requires 0 <= a.questionIndex < |qs|
    ensures GradeOne(qs[a.questionIndex := qs[a.questionIndex].(qtype := t)], a) == GradeOne(qs, a)
  {
  }

  /** One detail per submitted answer, in submission order. */
  function GradeAll(qs: seq<Question>, answers: seq<SubmittedAnswer>): (ds: seq<Detail>)
    ensures |ds| == |answers|
    ensures forall i :: 0 <= i < |answers| ==> ds[i] == GradeOne(qs, answers[i])
  {
    if |answers| == 0 then [] else [GradeOne(qs, answers[0])] + GradeAll(qs, answers[1..])
  }

  function Score(ds: seq<Detail>): int
  {
    if |ds| == 0 then 0 else PointsEarned(ds[0]) + Score(ds[1..])
  }

  /**
   * POST submit-quiz: `quizId` and an `answers` array are required before
   * the quiz is looked up; the reply's `total` depends only on the quiz.
   */
  function SubmitQuiz(quizId: Option<string>, answers: Option<seq<SubmittedAnswer>>, quiz: Option<Quiz>)
    : (r: Result<Report, GradeError>)
    ensures quizId.None? || quizId == Some("") || answers.None? ==> r == Failure(MissingInput)
    ensures quizId.Some? && quizId != Some("") && answers.Some? && quiz.None? ==> r == Failure(QuizNotFound)
    ensures quizId.Some? && quizId != Some("") && answers.Some? && quiz.Some? ==> r.Success?
    ensures r.Success? ==>
      && quiz.Some? && answers.Some?
      && r.value.total == Total(quiz.value.questions)
      && r.value.details == GradeAll(quiz.value.questions, answers.value)
      && r.value.score == Score(r.value.details)
  {
    if quizId.None? || quizId == Some("") || answers.None? then Failure(MissingInput)
    else if quiz.None? then Failure(QuizNotFound)
    else
      var details := GradeAll(quiz.value.questions, answers.value);
      Success(Report(Score(details), Total(quiz.value.questions), details))
  }

  /* ---------------------------------------------------------------- route registration */

  /** What one handler registered for a path does with a request. */
  datatype HandlerOutcome<R> = Replies(reply: R) | PassesOn | Pending

  /**
   * Express offers a request to the handlers registered for its path in
   * registration order. The first one that does not call `next` decides:
   * it replies, or leaves the request pending. Only when every handler
   * passes it on does nothing answer it here.
   */
  function Dispatch<R>(handlers: seq<HandlerOutcome<R>>): (o: HandlerOutcome<R>)
    ensures o.PassesOn? <==> forall i :: 0 <= i < |handlers| ==> handlers[i].PassesOn?
    ensures !o.PassesOn? ==>
      exists i :: 0 <= i < |handlers| && handlers[i] == o && forall j :: 0 <= j < i ==> handlers[j].PassesOn?
  {
    if |handlers| == 0 then PassesOn
    else if !handlers[0].PassesOn? then handlers[0]
    else
      var o := Dispatch(handlers[1..]);
      assert forall i :: 1 <= i < |handlers| ==> handlers[i] == handlers[1..][i - 1];
      o
  }

  /**
   * POST submit-quiz as registered: an empty placeholder handler comes
   * first (public.js:65-67). It neither replies nor calls `next`, so the
   * grading handler registered later for the same path is never reached.
   */
  function SubmitQuizAsRegistered(quizId: Option<string>, answers: Option<seq<SubmittedAnswer>>, quiz: Option<Quiz>)
    : (o: HandlerOutcome<Result<Report, GradeError>>)
    ensures o == Pending
  {
    Dispatch([Pending, Replies(SubmitQuiz(quizId, answers, quiz))])
  }

  /** POST submit-quiz with only the grading handler registered, as the later comment intends. */
  function SubmitQuizAsIntended(quizId: Option<string>, answers: Option<seq<SubmittedAnswer>>, quiz: Option<Quiz>)
    : (o: HandlerOutcome<Result<Report, GradeError>>)
    ensures o.Replies? && o.reply == SubmitQuiz(quizId, answers, quiz)
  {
    Dispatch([Replies(SubmitQuiz(quizId, answers, quiz))])
  }

  /**
   * A complete request for a stored quiz: the intended route grades it,
   * the registered route never answers.
   */
  lemma PlaceholderShadowsGrading(id: string, quiz: Quiz)
    requires id != ""
    ensures SubmitQuizAsIntended(Some(id), Some([]), Some(quiz)).reply.Success?
    ensures SubmitQuizAsRegistered(Some(id), Some([]), Some(quiz)) == Pending
  {
  }

  /* ---------------------------------------------------------------- score bound */

  predicate DistinctIndices(answers: seq<SubmittedAnswer>)
  {
    forall i, j :: 0 <= i < j < |answers| ==> answers[i].questionIndex != answers[j].questionIndex
  }

  predicate NonNegativePoints(qs: seq<Question>)
  {
    forall i :: 0 <= i < |qs| ==> QuestionPoints(qs[i]) >= 0
  }

  function IndexSet(answers: seq<SubmittedAnswer>): set<int>
  {
    set i | 0 <= i < |answers| :: answers[i].questionIndex
  }

  /** The points of the questions at positions `base + i` that lie in `s`. */
  function PointsWithin(qs: seq<Question>, s: set<int>, base: int): int
  {
    if |qs| == 0 then 0
    else (if base in s then QuestionPoints(qs[0]) else 0) + PointsWithin(qs[1..], s, base + 1)
  }

  lemma {:induction false} PointsWithinAdd(qs: seq<Question>, s: set<int>, base: int, x: int)
    requires x !in s
    ensures PointsWithin(qs, s + {x}, base) ==
            PointsWithin(qs, s, base) + (if base <= x < base + |qs| then QuestionPoints(qs[x - base]) else 0)
    decreases |qs|
  {
    if |qs| > 0 {
      PointsWithinAdd(qs[1..], s, base + 1, x);
      if base < x < base + |qs| {
        assert qs[1..][x - (base + 1)] == qs[x - base];
      }
    }
  }

  lemma {:induction false} PointsWithinNone(qs: seq<Question>, base: int)
    ensures PointsWithin(qs, {}, base) == 0
    decreases |qs|
  {
    if |qs| > 0 {
      PointsWithinNone(qs[1..], base + 1);
    }
  }

  lemma {:induction false} PointsWithinAtMostTotal(qs: seq<Question>, s: set<int>, base: int)
    requires NonNegativePoints(qs)
    ensures PointsWithin(qs, s, base) <= Total(qs)
    decreases |qs|
  {
    if |qs| > 0 {
      assert QuestionPoints(qs[0]) >= 0;
      assert NonNegativePoints(qs[1..]) by {
        forall i | 0 <= i < |qs[1..]| ensures QuestionPoints(qs[1..][i]) >= 0 {
          assert qs[1..][i] == qs[i + 1];
        }
      }
      PointsWithinAtMostTotal(qs[1..], s, base + 1);
    }
  }

  lemma DistinctTail(answers: seq<SubmittedAnswer>)
    requires |answers| > 0 && DistinctIndices(answers)
    ensures DistinctIndices(answers[1..]) && answers[0].questionIndex !in IndexSet(answers[1..])
  {
    var rest := answers[1..];
    forall i, j | 0 <= i < j < |rest| ensures rest[i].questionIndex != rest[j].questionIndex {
      assert rest[i] == answers[i + 1] && rest[j] == answers[j + 1];
    }
    forall i | 0 <= i < |rest| ensures rest[i].questionIndex != answers[0].questionIndex {
      assert rest[i] == answers[i + 1];
    }
  }

  lemma IndexSetCons(answers: seq<SubmittedAnswer>)
    requires |answers| > 0
    ensures IndexSet(answers) == IndexSet(answers[1..]) + {answers[0].questionIndex}
  {
    var a, rest := answers[0], answers[1..];
    forall x | x in IndexSet(answers) ensures x in IndexSet(rest) + {a.questionIndex} {
      var i :| 0 <= i < |answers| && answers[i].questionIndex == x;
      if i > 0 { assert rest[i - 1] == answers[i]; }
    }
    forall x | x in IndexSet(rest) ensures x in IndexSet(answers) {
      var i :| 0 <= i < |rest| && rest[i].questionIndex == x;
      assert answers[i + 1] == rest[i];
    }
  }

  /** An answer earns at most its question's points, and nothing for a bad index. */
  lemma GradeOneAtMostPoints(qs: seq<Question>, a: SubmittedAnswer)
    requires NonNegativePoints(qs)
    ensures PointsEarned(GradeOne(qs, a)) <= if 0 <= a.questionIndex < |qs| then QuestionPoints(qs[a.questionIndex]) else 0
  {
    if 0 <= a.questionIndex < |qs| {
      assert QuestionPoints(qs[a.questionIndex]) >= 0;
    }
  }

  lemma {:induction false} ScoreWithinAnswered(qs: seq<Question>, answers: seq<SubmittedAnswer>)
    requires DistinctIndices(answers) && NonNegativePoints(qs)
    ensures Score(GradeAll(qs, answers)) <= PointsWithin(qs, IndexSet(answers), 0)
    decreases |answers|
  {
    if |answers| == 0 {
      assert IndexSet(answers) == {};
      PointsWithinNone(qs, 0);
    } else {
      var a, rest := answers[0], answers[1..];
      DistinctTail(answers);
      ScoreWithinAnswered(qs, rest);
      IndexSetCons(answers);
      assert a.questionIndex !in IndexSet(rest);
      PointsWithinAdd(qs, IndexSet(rest), 0, a.questionIndex);
      var ds := GradeAll(qs, answers);
      assert ds[1..] == GradeAll(qs, rest);
      assert Score(ds) == PointsEarned(GradeOne(qs, a)) + Score(GradeAll(qs, rest));
      var contribution := if 0 <= a.questionIndex < |qs| then QuestionPoints(qs[a.questionIndex]) else 0;
      GradeOneAtMostPoints(qs, a);
      calc {
        Score(ds);
        PointsEarned(GradeOne(qs, a)) + Score(GradeAll(qs, rest));
      <= contribution + PointsWithin(qs, IndexSet(rest), 0);
        PointsWithin(qs, IndexSet(rest) + {a.questionIndex}, 0);
        PointsWithin(qs, IndexSet(answers), 0);
      }
    }
  }

  /**
   * With distinct question indices and no negative point values, the score
   * never exceeds the total.
   */
  lemma ScoreAtMostTotal(qs: seq<Question>, answers: seq<SubmittedAnswer>)
    requires DistinctIndices(answers) && NonNegativePoints(qs)
    ensures Score(GradeAll(qs, answers)) <= Total(qs)
  {
    ScoreWithinAnswered(qs, answers);
    PointsWithinAtMostTotal(qs, IndexSet(answers), 0);
  }

  /** Repeated indices are all scored: answering the one question twice earns twice its points. */
  lemma RepeatedIndexScoresTwice()
    ensures var qs := [Question("2+2?", Text, None, Some("4"), Some(1))];
            var a := SubmittedAnswer(0, Some("4"));
            Score(GradeAll(qs, [a, a])) == 2 && Total(qs) == 1
  {
    var qs := [Question("2+2?", Text, None, Some("4"), Some(1))];
    var a := SubmittedAnswer(0, Some("4"));
    NormalizeOfLetter('4');
    var d := GradeOne(qs, a);
    assert d.Graded? && d.correct && d.pointsEarned == 1;
    var ds := GradeAll(qs, [a, a]);
    assert ds == [d, d];
    assert [d, d][1..] == [d] && [d][1..] == [];
    assert Score([d]) == 1;
    assert Score([d, d]) == 2;
    assert qs[1..] == [];
  }

  /** A negative point value lets a score pass the total even with distinct indices. */
  lemma NegativePointsBreakTheBound()
    ensures var qs := [Question("a", Text, None, Some("x"), Some(-5)), Question("b", Text, None, Some("y"), Some(10))];
            var answers := [SubmittedAnswer(1, Some("y"))];
            DistinctIndices(answers) && Score(GradeAll(qs, answers)) == 10 && Total(qs) == 5
  {
    var qs := [Question("a", Text, None, Some("x"), Some(-5)), Question("b", Text, None, Some("y"), Some(10))];
    var a := SubmittedAnswer(1, Some("y"));
    NormalizeOfLetter('y');
    var d := GradeOne(qs, a);
    assert d.Graded? && d.correct && d.pointsEarned == 10;
    assert GradeAll(qs, [a]) == [d];
    assert qs[1..] == [qs[1]] && qs[1..][1..] == [];
  }

  /**
   * A string with no surrounding blanks and no capitals is its own normal form,
   * whatever blanks it holds inside: normalizing never touches inner spacing.
   */
  lemma NormalizeOfPlain(s: string)
    requires Text.IsTrimmed(s) && forall i :: 0 <= i < |s| ==> !('A' <= s[i] <= 'Z')
    ensures Normalize(Some(s)) == s
  {
    Text.TrimOfTrimmed(s);
  }

  /** A one-character answer that is neither blank nor a capital is its own normal form. */
  lemma NormalizeOfLetter(c: char)
    requires !Text.IsWhitespace(c) && !('A' <= c <= 'Z')
    ensures Normalize(Some([c])) == [c]
  {
    NormalizeOfPlain([c]);
  }

  /**
   * The blank between two words survives normalizing, so the words run
   * together ("newyork") never match the words apart ("new york").
   */
  lemma NormalizeKeepsInnerBlanks(a: string, b: string)
    requires |a| > 0 && |b| > 0 && Text.IsTrimmed(a) && Text.IsTrimmed(b)
    requires forall i :: 0 <= i < |a| ==> !('A' <= a[i] <= 'Z')
    requires forall i :: 0 <= i < |b| ==> !('A' <= b[i] <= 'Z')
    ensures Normalize(Some(a + " " + b)) == a + " " + b
    ensures Normalize(Some(a + b)) != Normalize(Some(a + " " + b))
  {
    var apart := a + " " + b;
    assert apart[0] == a[0] && apart[|apart| - 1] == b[|b| - 1];
    assert forall i :: 0 <= i < |apart| ==> apart[i] == if i < |a| then a[i] else if i == |a| then ' ' else b[i - |a| - 1];
    NormalizeOfPlain(apart);
    var together := a + b;
    assert together[0] == a[0] && together[|together| - 1] == b[|b| - 1];
    assert forall i :: 0 <= i < |together| ==> together[i] == if i < |a| then a[i] else b[i - |a|];
    NormalizeOfPlain(together);
  }

  /* ---------------------------------------------------------------- public view */

  /** A question as GET /quiz/:id shows it: no correct answer. */
  datatype PublicQuestion = PublicQuestion(text: string, qtype: QuestionType, options: seq<string>, points: int)

  datatype PublicQuiz = PublicQuiz(quizId: string, title: string, questions: seq<PublicQuestion>)

  function PublicView(quiz: Quiz): (r: PublicQuiz)
    ensures r.quizId == quiz.quizId && r.title == quiz.title
    ensures |r.questions| == |quiz.questions|
    ensures forall i :: 0 <= i < |quiz.questions| ==>
      var q := quiz.questions[i];
      r.questions[i] == PublicQuestion(q.text, q.qtype, q.options.GetOr([]), QuestionPoints(q))
  {
    var qs := quiz.questions;
    PublicQuiz(quiz.quizId, quiz.title,
      seq(|qs|, i requires 0 <= i < |qs| =>
        PublicQuestion(qs[i].text, qs[i].qtype, qs[i].options.GetOr([]), QuestionPoints(qs[i]))))
  }

  function PublicPoints(pqs: seq<PublicQuestion>): int
  {
    if |pqs| == 0 then 0 else pqs[0].points + PublicPoints(pqs[1..])
  }

  /** The points the public view shows add up to the total a graded attempt reports. */
  lemma {:induction false} PublicPointsMatchTotal(quiz: Quiz)
    ensures PublicPoints(PublicView(quiz).questions) == Total(quiz.questions)
  {
    PublicPointsOf(quiz.questions, PublicView(quiz).questions);
  }

  lemma {:induction false} PublicPointsOf(qs: seq<Question>, pqs: seq<PublicQuestion>)
    requires |pqs| == |qs| && forall i :: 0 <= i < |qs| ==> pqs[i].points == QuestionPoints(qs[i])
    ensures PublicPoints(pqs) == Total(qs)
    decreases |qs|
  {
    if |qs| > 0 {
      PublicPointsOf(qs[1..], pqs[1..]);
    }
  }
}

=== FILE: live_quiz.dfy ===
/**
 * The live-quiz room aggregate (quiz-back-end/models/LiveQuiz.js): a room's
 * participants, host, settings, status and question index, with the three
 * methods the schema defines on it.
 */
module LiveQuiz {
  import opened Wrappers
  import StableSort

  /** A user's id as the source compares it, by its string form. */
  type UserId = string

  /** Schema defaults. */
  const DefaultQuestionTimeLimit: int := 30
  const DefaultMaxParticipants: int := 50
  const DefaultPointsForCorrect: int := 100
  /** The question index of a room whose first question has not been shown. */
  const BeforeFirstQuestion: int := -1

  /**
   * The schema's status enum. `InProgress` is declared there but no code
   * ever sets it; `Valid` below rules it out.
   */
  datatype Status = Waiting | Starting | InProgress | QuestionActive | QuestionReview | Finished

  /** One recorded answer; times are milliseconds. */
  datatype AnswerRecord = AnswerRecord(
    questionIndex: int,
    answer: string,
    answeredAt: int,
    isCorrect: bool,
    points: int)

  datatype Participant = Participant(
    userId: UserId,
    username: string,
    joinedAt: int,
    score: int,
    answers: seq<AnswerRecord>)

  datatype Settings = Settings(pointsForCorrect: int, speedBonus: bool, showLeaderboard: bool)

  datatype Room = Room(
    roomId: string,
    title: string,
    hostId: UserId,
    hostName: string,
    quizId: string,
    roomCode: string,
    status: Status,
    currentQuestionIndex: int,
    questionStartTime: Option<int>,
    questionTimeLimit: int,
    participants: seq<Participant>,
    maxParticipants: int,
    settings: Settings,
    createdAt: int,
    startedAt: Option<int>,
    finishedAt: Option<int>)

  /* ---------------------------------------------------------------- membership */

  predicate Joined(ps: seq<Participant>, u: UserId)
  {
    exists i :: 0 <= i < |ps| && ps[i].userId == u
  }

  predicate UniqueIds(ps: seq<Participant>)
  {
    forall i, j :: 0 <= i < j < |ps| ==> ps[i].userId != ps[j].userId
  }

  /** `participants.find(p => p.userId == u)`: the position of the first match. */
  function FindParticipant(ps: seq<Participant>, u: UserId): (r: Option<nat>)
    ensures r.None? <==> !Joined(ps, u)
    ensures r.Some? ==> r.value < |ps| && ps[r.value].userId == u
    ensures r.Some? ==> forall j :: 0 <= j < r.value ==> ps[j].userId != u
  {
    if |ps| == 0 then None
    else if ps[0].userId == u then Some(0)
    else
      match FindParticipant(ps[1..], u)
      case None => None
      case Some(i) => Some(i + 1)
  }

  /** With unique ids the participant found is the only one with that id. */
  lemma FoundIsOnly(ps: seq<Participant>, u: UserId, j: int)
    requires UniqueIds(ps) && 0 <= j < |ps| && ps[j].userId == u
    ensures FindParticipant(ps, u) == Some(j)
  {
  }

  /** The outcome of `addParticipant`: `true`, `false`, or the thrown "Room is full". */
  datatype AddResult = Added(room: Room) | AlreadyJoined | RoomFull

  /**
   * `addParticipant`: an id already present is refused first, then a full
   * room; otherwise the new participant goes at the end with no score.
   */
  function AddParticipant(room: Room, u: UserId, username: string, now: int): (r: AddResult)
    ensures r.AlreadyJoined? <==> Joined(room.participants, u)
    ensures r.RoomFull? <==> !Joined(room.participants, u) && |room.participants| >= room.maxParticipants
    ensures r.Added? ==>
      && |r.room.participants| == |room.participants| + 1
      && r.room.participants[..|room.participants|] == room.participants
      && r.room.participants[|room.participants|] == Participant(u, username, now, 0, [])
      && r.room.(participants := room.participants) == room
  {
    if FindParticipant(room.participants, u).Some? then AlreadyJoined
    else if |room.participants| >= room.maxParticipants then RoomFull
    else Added(room.(participants := room.participants + [Participant(u, username, now, 0, [])]))
  }

  /** A successful add keeps the room within capacity and its ids unique. */
  lemma AddKeepsCapacityAndIds(room: Room, u: UserId, username: string, now: int)
    requires UniqueIds(room.participants)
    requires AddParticipant(room, u, username, now).Added?
    ensures var ps := AddParticipant(room, u, username, now).room.participants;
      |ps| <= room.maxParticipants && UniqueIds(ps) && Joined(ps, u)
  {
    var ps := AddParticipant(room, u, username, now).room.participants;
    assert ps[|ps| - 1].userId == u;
  }

  /** `removeParticipant`: keeps, in order, every participant with another id. */
  function RemoveParticipant(ps: seq<Participant>, u: UserId): (r: seq<Participant>)
    ensures !Joined(r, u)
    ensures forall i :: 0 <= i < |r| ==> r[i] in ps
    ensures forall i :: 0 <= i < |ps| && ps[i].userId != u ==> ps[i] in r
    ensures !Joined(ps, u) ==> r == ps
    ensures |r| <= |ps|
  {
    if |ps| == 0 then []
    else if ps[0].userId == u then RemoveParticipant(ps[1..], u)
    else [ps[0]] + RemoveParticipant(ps[1..], u)
  }

  /** Filtering distributes over concatenation, so the relative order of the kept entries is that of `ps`. */
  lemma {:induction false} RemoveSplits(a: seq<Participant>, b: seq<Participant>, u: UserId)
    ensures RemoveParticipant(a + b, u) == RemoveParticipant(a, u) + RemoveParticipant(b, u)
    decreases |a|
  {
    if |a| == 0 {
      assert a + b == b;
    } else {
      assert (a + b)[0] == a[0];
      assert (a + b)[1..] == a[1..] + b;
      RemoveSplits(a[1..], b, u);
    }
  }

  /** Removing a present id from a room with unique ids drops exactly one entry. */
  lemma {:induction false} RemoveDropsOne(ps: seq<Participant>, u: UserId)
    requires UniqueIds(ps) && Joined(ps, u)
    ensures |RemoveParticipant(ps, u)| == |ps| - 1
    ensures UniqueIds(RemoveParticipant(ps, u))
    decreases |ps|
  {
    if ps[0].userId == u {
      assert !Joined(ps[1..], u);
    } else {
      assert Joined(ps[1..], u);
      RemoveDropsOne(ps[1..], u);
    }
  }

  /** Removing keeps ids unique. */
  lemma {:induction false} RemoveKeepsUnique(ps: seq<Participant>, u: UserId)
    requires UniqueIds(ps)
    ensures UniqueIds(RemoveParticipant(ps, u))
    decreases |ps|
  {
    if |ps| > 0 {
      RemoveKeepsUnique(ps[1..], u);
      var rest := RemoveParticipant(ps[1..], u);
      if ps[0].userId != u {
        forall i | 0 <= i < |rest| ensures rest[i].userId != ps[0].userId {
          assert rest[i] in ps[1..];
        }
      }
    }
  }

  /**
   * The first survivor of a removal is the earliest participant, in join
   * order, whose id differs from the removed one.
   */
  lemma {:induction false} RemoveFirstSurvivor(ps: seq<Participant>, u: UserId)
    requires |RemoveParticipant(ps, u)| > 0
    ensures exists j :: 0 <= j < |ps| && RemoveParticipant(ps, u)[0] == ps[j]
                        && ps[j].userId != u && forall i :: 0 <= i < j ==> ps[i].userId == u
    decreases |ps|
  {
    if ps[0].userId == u {
      RemoveFirstSurvivor(ps[1..], u);
      var j :| 0 <= j < |ps[1..]| && RemoveParticipant(ps[1..], u)[0] == ps[1..][j]
               && ps[1..][j].userId != u && forall i :: 0 <= i < j ==> ps[1..][i].userId == u;
      assert RemoveParticipant(ps, u)[0] == ps[j + 1];
      assert forall i :: 0 <= i < j + 1 ==> ps[i].userId == u by {
        forall i | 0 <= i < j + 1 ensures ps[i].userId == u {
          if i > 0 { assert ps[i] == ps[1..][i - 1]; }
        }
      }
    } else {
      assert RemoveParticipant(ps, u)[0] == ps[0];
    }
  }

  /* ---------------------------------------------------------------- leaderboard */

  /** What a leaderboard shows of a participant. */
  datatype Standing = Standing(userId: UserId, username: string, score: int)

  datatype LeaderboardEntry = LeaderboardEntry(rank: int, userId: UserId, username: string, score: int)

  function StandingOf(p: Participant): Standing
  {
    Standing(p.userId, p.username, p.score)
  }

  function ScoreOf(s: Standing): int
  {
    s.score
  }

  function Standings(ps: seq<Participant>): (r: seq<Standing>)
    ensures |r| == |ps|
    ensures forall i :: 0 <= i < |ps| ==> r[i] == StandingOf(ps[i])
  {
    seq(|ps|, i requires 0 <= i < |ps| => StandingOf(ps[i]))
  }

  function EntryStanding(e: LeaderboardEntry): Standing
  {
    Standing(e.userId, e.username, e.score)
  }

  function EntryStandings(es: seq<LeaderboardEntry>): (r: seq<Standing>)
    ensures |r| == |es|
    ensures forall i :: 0 <= i < |es| ==> r[i] == EntryStanding(es[i])
  {
    seq(|es|, i requires 0 <= i < |es| => EntryStanding(es[i]))
  }

  /** Numbers sorted standings 1, 2, 3, ... */
  function Ranked(ss: seq<Standing>): (r: seq<LeaderboardEntry>)
    ensures EntryStandings(r) == ss
    ensures forall i :: 0 <= i < |r| ==> r[i].rank == i + 1
  {
    seq(|ss|, i requires 0 <= i < |ss| => LeaderboardEntry(i + 1, ss[i].userId, ss[i].username, ss[i].score))
  }

  /**
   * `getLeaderboard`: every participant once, highest score first, ties in
   * join order (the stable sort), ranked from 1.
   */
  function Leaderboard(ps: seq<Participant>): (r: seq<LeaderboardEntry>)
    ensures |r| == |ps|
    ensures forall i :: 0 <= i < |r| ==> r[i].rank == i + 1
    ensures forall i, j :: 0 <= i < j < |r| ==> r[i].score >= r[j].score
    ensures multiset(EntryStandings(r)) == multiset(Standings(ps))
    ensures StableSort.IsStableDesc(Standings(ps), EntryStandings(r), ScoreOf)
  {
    var sorted := StableSort.SortDesc(Standings(ps), ScoreOf);
    RankedKeepsOrder(sorted);
    Ranked(sorted)
  }

  /** Numbering keeps each entry's score, so a descending list stays descending. */
  lemma RankedKeepsOrder(ss: seq<Standing>)
    requires StableSort.NonIncreasing(ss, ScoreOf)
    ensures forall i, j :: 0 <= i < j < |Ranked(ss)| ==> Ranked(ss)[i].score >= Ranked(ss)[j].score
  {
    var r := Ranked(ss);
    forall i | 0 <= i < |r| ensures r[i].score == ScoreOf(ss[i]) {
      assert EntryStandings(r)[i] == EntryStanding(r[i]);
    }
  }

  /** The leaderboard is the one and only stable descending ranking of the room. */
  lemma LeaderboardIsTheStableRanking(ps: seq<Participant>, ranking: seq<Standing>)
    requires StableSort.IsStableDesc(Standings(ps), ranking, ScoreOf)
    ensures Leaderboard(ps) == Ranked(ranking)
  {
    StableSort.StableDescUnique(Standings(ps), ranking, ScoreOf);
  }

  /** A participant with strictly the highest score heads the leaderboard with rank 1. */
  lemma UniqueLeaderFirst(ps: seq<Participant>, i: nat)
    requires i < |ps|
    requires forall j :: 0 <= j < |ps| && j != i ==> ps[j].score < ps[i].score
    ensures Leaderboard(ps)[0] == LeaderboardEntry(1, ps[i].userId, ps[i].username, ps[i].score)
  {
    var board := Leaderboard(ps);
    var es := EntryStandings(board);
    var ss := Standings(ps);
    assert ss[i] in multiset(es);
    var m :| 0 <= m < |es| && es[m] == ss[i];
    assert board[0].score >= board[m].score;
    assert es[0] in multiset(ss);
    var j :| 0 <= j < |ss| && ss[j] == es[0];
    assert ps[j].score >= ps[i].score;
  }

  /** Ties keep join order: with scores 30, 30, 50 in join order A, B, C, the ranking is C, A, B. */
  lemma LeaderboardTieExample(pa: Participant, pb: Participant, pc: Participant)
    requires pa.score == 30 && pb.score == 30 && pc.score == 50
    ensures Leaderboard([pa, pb, pc]) == [LeaderboardEntry(1, pc.userId, pc.username, 50),
                                          LeaderboardEntry(2, pa.userId, pa.username, 30),
                                          LeaderboardEntry(3, pb.userId, pb.username, 30)]
  {
    var ps := [pa, pb, pc];
    var a, b, c := StandingOf(pa), StandingOf(pb), StandingOf(pc);
    assert Standings(ps) == [a, b, c];
    TieRankingIsStable(a, b, c);
    LeaderboardIsTheStableRanking(ps, [c, a, b]);
    RankedThree(c, a, b);
  }

  lemma RankedThree(x: Standing, y: Standing, z: Standing)
    ensures Ranked([x, y, z]) == [LeaderboardEntry(1, x.userId, x.username, x.score),
                                  LeaderboardEntry(2, y.userId, y.username, y.score),
                                  LeaderboardEntry(3, z.userId, z.username, z.score)]
  {
  }

  lemma TieRankingIsStable(a: Standing, b: Standing, c: Standing)
    requires a.score == 30 && b.score == 30 && c.score == 50
    ensures StableSort.IsStableDesc([a, b, c], [c, a, b], ScoreOf)
  {
    forall k ensures StableSort.WithKey([c, a, b], ScoreOf, k) == StableSort.WithKey([a, b, c], ScoreOf, k) {
      StableSort.WithKeyCons(a, [b, c], ScoreOf, k);
      StableSort.WithKeyCons(b, [c], ScoreOf, k);
      StableSort.WithKeyCons(c, [a, b], ScoreOf, k);
      StableSort.WithKeyCons(a, [b], ScoreOf, k);
      assert [b, c] == [b] + [c] && [a, b, c] == [a] + [b, c] && [c, a, b] == [c] + [a, b] && [a, b] == [a] + [b];
      assert StableSort.WithKey([b], ScoreOf, k) == (if b.score == k then [b] else []);
      assert StableSort.WithKey([c], ScoreOf, k) == (if c.score == k then [c] else []);
    }
  }

  /* ---------------------------------------------------------------- invariant */

  function PointsSum(answers: seq<AnswerRecord>): int
  {
    if |answers| == 0 then 0 else PointsSum(answers[..|answers| - 1]) + answers[|answers| - 1].points
  }

  predicate AnsweredIndex(answers: seq<AnswerRecord>, k: int)
  {
    exists i :: 0 <= i < |answers| && answers[i].questionIndex == k
  }

  predicate DistinctIndices(answers: seq<AnswerRecord>)
  {
    forall i, j :: 0 <= i < j < |answers| ==> answers[i].questionIndex != answers[j].questionIndex
  }

  /** A participant's record is consistent with a room at question `current`. */
  predicate ParticipantOk(p: Participant, current: int)
  {
    && p.score == PointsSum(p.answers)
    && DistinctIndices(p.answers)
    && forall i :: 0 <= i < |p.answers| ==> 0 <= p.answers[i].questionIndex <= current
  }

  /**
   * What every stored room satisfies, for a quiz of `questionCount`
   * questions: within capacity, unique ids, host among the participants,
   * scores equal to the sum of recorded points, at most one answer per
   * question, the index in range for the status, and never `InProgress`.
   */
  predicate Valid(r: Room, questionCount: nat)
  {
    && r.status != InProgress
    && |r.participants| <= r.maxParticipants
    && UniqueIds(r.participants)
    && Joined(r.participants, r.hostId)
    && r.questionTimeLimit != 0
    && BeforeFirstQuestion <= r.currentQuestionIndex
    && ((r.status == Waiting || r.status == Starting) ==> r.currentQuestionIndex == BeforeFirstQuestion)
    && ((r.status == QuestionActive || r.status == QuestionReview) ==> r.currentQuestionIndex < questionCount)
    && (r.status == QuestionActive ==> r.questionStartTime.Some?)
    && (r.status == Finished ==> r.currentQuestionIndex + 1 == questionCount)
    && forall i :: 0 <= i < |r.participants| ==> ParticipantOk(r.participants[i], r.currentQuestionIndex)
  }

  /** A successful add keeps a valid room valid. */
  lemma AddKeepsValid(room: Room, n: nat, u: UserId, username: string, now: int)
    requires Valid(room, n)
    requires AddParticipant(room, u, username, now).Added?
    ensures Valid(AddParticipant(room, u, username, now).room, n)
  {
    var r := AddParticipant(room, u, username, now).room;
    AddKeepsCapacityAndIds(room, u, username, now);
    var i :| 0 <= i < |room.participants| && room.participants[i].userId == room.hostId;
    assert r.participants[i] == room.participants[i];
    forall i | 0 <= i < |r.participants| ensures ParticipantOk(r.participants[i], r.currentQuestionIndex) {
      if i < |room.participants| {
        assert r.participants[i] == room.participants[i];
      }
    }
  }
}

=== FILE: quiz.dfy ===
/** The stored quiz content (quiz-back-end/models/Quiz.js): read-only for every session. */
module QuizContent {
  import opened Wrappers

  datatype QuestionType = MCQ | Text | Boolean

  /**
   * One stored question. The schema makes `correctAnswer` required and
   * defaults `points` to 1, but the grading route reads documents without
   * the schema applied and guards against a missing answer and a missing or
   * zero `points`, so both are optional here.
   */
  datatype Question = Question(
    text: string,
    qtype: QuestionType,
    options: Option<seq<string>>,
    correctAnswer: Option<string>,
    points: Option<int>)

  datatype Quiz = Quiz(quizId: string, title: string, questions: seq<Question>)
}

=== FILE: rooms.dfy ===
/**
 * Room management over REST (quiz-back-end/routes/liveQuiz.js): creating a
 * room, joining by code, listing the rooms that are open, and leaving.
 *
 * The datastore is a sequence of rooms; a lookup returns the first match,
 * as `findOne`/`findById` do when codes and ids are unique.
 */
module Rooms {
  import opened Wrappers
  import opened LiveQuiz
  import QuizContent
  import Text
  import StableSort

  /** The active-room list holds at most this many rooms. */
  const ActiveRoomLimit: int := 20

  datatype RestError =
    | BadRequest(message: string)
    | NotFound(message: string)
    | ServerError(message: string)
      /** Every candidate code was taken. The source never reports this: it keeps drawing codes. */
    | CodeSpaceExhausted

  function HttpStatus(e: RestError): int
  {
    match e
    case BadRequest(_) => 400
    case NotFound(_) => 404
    case ServerError(_) => 500
    case CodeSpaceExhausted => 500
  }

  /**
   * The optional `settings` of a create-room request. A missing field is
   * `None`; a flag that is not a boolean behaves like a missing one.
   */
  datatype SettingsInput = SettingsInput(
    questionTimeLimit: Option<int>,
    maxParticipants: Option<int>,
    pointsForCorrect: Option<int>,
    speedBonus: Option<bool>,
    showLeaderboard: Option<bool>)

  /** JavaScript's `v || d` on a number: a missing or zero value takes the default. */
  function OrDefault(v: Option<int>, d: int): (r: int)
    ensures v.Some? && v.value != 0 ==> r == v.value
    ensures v.None? || v.value == 0 ==> r == d
  {
    if v.Some? && v.value != 0 then v.value else d
  }

  /** The room document built by create-room, before the host joins it. */
  function NewRoom(roomId: string, quiz: QuizContent.Quiz, host: UserId, hostName: string,
                   code: string, input: SettingsInput, now: int): (r: Room)
    ensures r.questionTimeLimit != 0
    ensures input.questionTimeLimit.None? || input.questionTimeLimit == Some(0) ==>
              r.questionTimeLimit == DefaultQuestionTimeLimit
    ensures input.questionTimeLimit.Some? && input.questionTimeLimit.value != 0 ==>
              r.questionTimeLimit == input.questionTimeLimit.value
    ensures input.maxParticipants.None? || input.maxParticipants == Some(0) ==>
              r.maxParticipants == DefaultMaxParticipants
    ensures input.maxParticipants.Some? && input.maxParticipants.value != 0 ==>
              r.maxParticipants == input.maxParticipants.value
    ensures input.pointsForCorrect.None? || input.pointsForCorrect == Some(0) ==>
              r.settings.pointsForCorrect == DefaultPointsForCorrect
    ensures input.pointsForCorrect.Some? && input.pointsForCorrect.value != 0 ==>
              r.settings.pointsForCorrect == input.pointsForCorrect.value
    ensures r.settings.speedBonus <==> input.speedBonus != Some(false)
    ensures r.settings.showLeaderboard <==> input.showLeaderboard != Some(false)
    ensures r.status == Waiting && r.currentQuestionIndex == BeforeFirstQuestion
    ensures r.participants == [] && r.hostId == host && r.roomCode == code
    ensures r.roomId == roomId && r.title == quiz.title && r.hostName == hostName
    ensures r.quizId == quiz.quizId && r.createdAt == now
  {
    Room(roomId, quiz.title, host, hostName, quiz.quizId, code,
         Waiting, BeforeFirstQuestion, None,
         OrDefault(input.questionTimeLimit, DefaultQuestionTimeLimit),
         [],
         OrDefault(input.maxParticipants, DefaultMaxParticipants),
         Settings(OrDefault(input.pointsForCorrect, DefaultPointsForCorrect),
                  input.speedBonus != Some(false),
                  input.showLeaderboard != Some(false)),
         now, None, None)
  }

  /** The codes of the stored rooms. */
  function Codes(store: seq<Room>): set<string>
  {
    set i | 0 <= i < |store| :: store[i].roomCode
  }

  /** No two stored rooms share an id; the datastore generates every id fresh. */
  predicate UniqueRoomIds(store: seq<Room>)
  {
    forall i, j :: 0 <= i < j < |store| ==> store[i].roomId != store[j].roomId
  }

  /** No two stored rooms share a code. */
  predicate UniqueCodes(store: seq<Room>)
  {
    forall i, j :: 0 <= i < j < |store| ==> store[i].roomCode != store[j].roomCode
  }

  /**
   * The code loop of create-room over a finite list of random draws: the
   * first draw no stored room uses.
   */
  method PickRoomCode(existing: set<string>, candidates: seq<string>) returns (code: Option<string>)
    ensures code.Some? ==> code.value !in existing
    ensures code.Some? ==> exists i :: 0 <= i < |candidates| && candidates[i] == code.value
                                       && forall j :: 0 <= j < i ==> candidates[j] in existing
    ensures code.None? ==> forall i :: 0 <= i < |candidates| ==> candidates[i] in existing
  {
    var i := 0;
    while i < |candidates|
      invariant 0 <= i <= |candidates|
      invariant forall j :: 0 <= j < i ==> candidates[j] in existing
    {
      if candidates[i] !in existing {
        return Some(candidates[i]);
      }
      i := i + 1;
    }
    return None;
  }

  /**
   * POST create-room: the quiz must exist; the code is fresh; the host is
   * the only participant; the room is appended to the store.
   */
  method CreateRoom(store: seq<Room>, quiz: Option<QuizContent.Quiz>, host: UserId, hostName: string,
                    input: SettingsInput, roomId: string, candidates: seq<string>, now: int)
    returns (r: Result<seq<Room>, RestError>)
    requires forall i :: 0 <= i < |store| ==> store[i].roomId != roomId
    ensures quiz.None? ==> r == Failure(NotFound("Quiz not found"))
    ensures r.Success? ==>
      && quiz.Some?
      && |r.value| == |store| + 1 && r.value[..|store|] == store
      && var created := r.value[|store|];
      && created.roomCode !in Codes(store)
      && created.roomCode in candidates
      && created.participants == [Participant(host, hostName, now, 0, [])]
      && created.hostId == host
      && created.(participants := []) == NewRoom(roomId, quiz.value, host, hostName, created.roomCode, input, now)
      && Valid(created, |quiz.value.questions|)
      && (UniqueCodes(store) ==> UniqueCodes(r.value))
      && (UniqueRoomIds(store) ==> UniqueRoomIds(r.value))
    ensures r.Failure? ==> HttpStatus(r.error) == if quiz.None? then 404 else 500
    ensures r.Failure? && quiz.Some? ==>
      || (r.error == CodeSpaceExhausted && forall i :: 0 <= i < |candidates| ==> candidates[i] in Codes(store))
      || (r.error == ServerError("Room is full") && OrDefault(input.maxParticipants, DefaultMaxParticipants) <= 0)
  {
    if quiz.None? {
      return Failure(NotFound("Quiz not found"));
    }
    var code := PickRoomCode(Codes(store), candidates);
    if code.None? {
      return Failure(CodeSpaceExhausted);
    }
    var blank := NewRoom(roomId, quiz.value, host, hostName, code.value, input, now);
    var added := AddParticipant(blank, host, hostName, now);
    if !added.Added? {
      return Failure(ServerError("Room is full"));
    }
    var created := added.room;
    assert created.participants == [Participant(host, hostName, now, 0, [])];
    assert created.participants[0].userId == host;
    r := Success(store + [created]);
    assert r.value[|store|] == created;
    forall j | 0 <= j < |store| ensures r.value[j].roomCode != created.roomCode && r.value[j].roomId != created.roomId {
      assert r.value[j] == store[j];
    }
  }

  /* ---------------------------------------------------------------- join-room */

  /** The position of the first stored room with this code. */
  function FindByCode(store: seq<Room>, code: string): (r: Option<nat>)
    ensures r.None? <==> code !in Codes(store)
    ensures r.Some? ==> r.value < |store| && store[r.value].roomCode == code
    ensures r.Some? ==> forall j :: 0 <= j < r.value ==> store[j].roomCode != code
  {
    if |store| == 0 then None
    else if store[0].roomCode == code then Some(0)
    else
      match FindByCode(store[1..], code)
      case None =>
        assert forall i :: 1 <= i < |store| ==> store[i] == store[1..][i - 1];
        None
      case Some(i) => Some(i + 1)
  }

  /** The position of the first stored room with this id. */
  function FindById(store: seq<Room>, roomId: string): (r: Option<nat>)
    ensures r.None? <==> forall i :: 0 <= i < |store| ==> store[i].roomId != roomId
    ensures r.Some? ==> r.value < |store| && store[r.value].roomId == roomId
    ensures r.Some? ==> forall j :: 0 <= j < r.value ==> store[j].roomId != roomId
  {
    if |store| == 0 then None
    else if store[0].roomId == roomId then Some(0)
    else
      match FindById(store[1..], roomId)
      case None => None
      case Some(i) =>
        assert forall j :: 1 <= j <= i ==> store[j] == store[1..][j - 1];
        Some(i + 1)
  }

  /**
   * POST join-room: a code is required, the room is looked up by the
   * upper-cased code, and only a waiting room admits a new participant.
   * Every rejection leaves the store as it was.
   */
  function JoinRoom(store: seq<Room>, code: Option<string>, u: UserId, username: string, now: int)
    : (r: Result<seq<Room>, RestError>)
    ensures code.None? || code == Some("") ==> r == Failure(BadRequest("Room code is required"))
    ensures r.Failure? ==> HttpStatus(r.error) == if r.error.NotFound? then 404 else 400
    ensures code.Some? && code.value != "" && Text.Upper(code.value) !in Codes(store) ==>
              r == Failure(NotFound("Room not found"))
    ensures r.Success? ==>
      && code.Some? && FindByCode(store, Text.Upper(code.value)).Some?
      && var i := FindByCode(store, Text.Upper(code.value)).value;
      && store[i].status == Waiting
      && AddParticipant(store[i], u, username, now).Added?
      && r.value == store[i := AddParticipant(store[i], u, username, now).room]
    ensures code.Some? && code.value != "" && FindByCode(store, Text.Upper(code.value)).Some? ==>
      var room := store[FindByCode(store, Text.Upper(code.value)).value];
      && (room.status != Waiting ==>
            r == Failure(BadRequest("Cannot join room - quiz already in progress or finished")))
      && (room.status == Waiting && Joined(room.participants, u) ==>
            r == Failure(BadRequest("You are already in this room")))
      && (room.status == Waiting && !Joined(room.participants, u) && |room.participants| >= room.maxParticipants ==>
            r == Failure(BadRequest("Room is full")))
      && (room.status == Waiting && !Joined(room.participants, u) && |room.participants| < room.maxParticipants ==>
            r.Success?)
  {
    if code.None? || code.value == "" then Failure(BadRequest("Room code is required"))
    else
      match FindByCode(store, Text.Upper(code.value))
      case None => Failure(NotFound("Room not found"))
      case Some(i) =>
        if store[i].status != Waiting then
          Failure(BadRequest("Cannot join room - quiz already in progress or finished"))
        else
          match AddParticipant(store[i], u, username, now)
          case AlreadyJoined => Failure(BadRequest("You are already in this room"))
          case RoomFull => Failure(BadRequest("Room is full"))
          case Added(room) => Success(store[i := room])
  }

  /**
   * A successful join changes only the room with the code: it stays valid,
   * and every code in the store stays where it was.
   */
  lemma JoinRoomKeepsStore(store: seq<Room>, code: Option<string>, u: UserId, username: string, now: int, n: nat)
    requires JoinRoom(store, code, u, username, now).Success?
    ensures var i := FindByCode(store, Text.Upper(code.value)).value;
      var after := JoinRoom(store, code, u, username, now).value;
      && |after| == |store|
      && (forall j :: 0 <= j < |store| && j != i ==> after[j] == store[j])
      && (forall j :: 0 <= j < |store| ==> after[j].roomCode == store[j].roomCode)
      && (Valid(store[i], n) ==> Valid(after[i], n))
      && (UniqueCodes(store) ==> UniqueCodes(after))
      && (forall j :: 0 <= j < |store| ==> after[j].roomId == store[j].roomId)
  {
    var i := FindByCode(store, Text.Upper(code.value)).value;
    if Valid(store[i], n) {
      AddKeepsValid(store[i], n, u, username, now);
    }
  }

  /* ---------------------------------------------------------------- active-rooms */

  /** A room the active list may show: waiting, with somebody in it. */
  predicate Listable(r: Room)
  {
    r.status == Waiting && |r.participants| > 0
  }

  function ListableRooms(store: seq<Room>): (r: seq<Room>)
    ensures forall i :: 0 <= i < |r| ==> Listable(r[i]) && r[i] in store
    ensures forall i :: 0 <= i < |store| && Listable(store[i]) ==> store[i] in r
  {
    if |store| == 0 then []
    else (if Listable(store[0]) then [store[0]] else []) + ListableRooms(store[1..])
  }

  /** Each listable room is listed exactly as often as it is stored; no other room is. */
  lemma {:induction false} ListableCounts(store: seq<Room>)
    ensures forall x :: multiset(ListableRooms(store))[x] == if Listable(x) then multiset(store)[x] else 0
  {
    if |store| > 0 {
      ListableCounts(store[1..]);
      assert store == [store[0]] + store[1..];
    }
  }

  function CreatedAt(r: Room): int
  {
    r.createdAt
  }

  /**
   * GET active-rooms: waiting rooms with participants, newest first, at most
   * twenty. A listable room left out is no newer than any room shown.
   */
  function ActiveRooms(store: seq<Room>): (r: seq<Room>)
    ensures |r| == if |ListableRooms(store)| < ActiveRoomLimit then |ListableRooms(store)| else ActiveRoomLimit
    ensures forall i :: 0 <= i < |r| ==> Listable(r[i]) && r[i] in store
    ensures multiset(r) <= multiset(ListableRooms(store))
    ensures forall x :: multiset(r)[x] <= multiset(store)[x]
    ensures forall i, j :: 0 <= i < j < |r| ==> r[i].createdAt >= r[j].createdAt
    ensures forall i :: 0 <= i < |store| && Listable(store[i]) && store[i] !in r ==>
              forall j :: 0 <= j < |r| ==> r[j].createdAt >= store[i].createdAt
  {
    var listable := ListableRooms(store);
    var sorted := StableSort.SortDesc(listable, CreatedAt);
    var n := if |sorted| < ActiveRoomLimit then |sorted| else ActiveRoomLimit;
    var r := sorted[..n];
    SortedPrefixFacts(store, listable, sorted, n);
    StableSort.PrefixSubMultiset(sorted, n);
    ListableCounts(store);
    r
  }

  lemma SortedPrefixFacts(store: seq<Room>, listable: seq<Room>, sorted: seq<Room>, n: nat)
    requires listable == ListableRooms(store)
    requires StableSort.NonIncreasing(sorted, CreatedAt) && multiset(sorted) == multiset(listable)
    requires n <= |sorted|
    ensures forall i :: 0 <= i < n ==> Listable(sorted[..n][i]) && sorted[..n][i] in store
    ensures forall i, j :: 0 <= i < j < n ==> sorted[..n][i].createdAt >= sorted[..n][j].createdAt
    ensures forall i :: 0 <= i < |store| && Listable(store[i]) && store[i] !in sorted[..n] ==>
              forall j :: 0 <= j < n ==> sorted[..n][j].createdAt >= store[i].createdAt
  {
    var r := sorted[..n];
    forall i | 0 <= i < n ensures Listable(r[i]) && r[i] in store {
      assert r[i] in multiset(sorted);
    }
    forall i, j | 0 <= i < j < n ensures r[i].createdAt >= r[j].createdAt {
      assert CreatedAt(sorted[i]) >= CreatedAt(sorted[j]);
    }
    SortedPrefixLargest(store, listable, sorted, n);
  }

  lemma SortedPrefixLargest(store: seq<Room>, listable: seq<Room>, sorted: seq<Room>, n: nat)
    requires listable == ListableRooms(store)
    requires StableSort.NonIncreasing(sorted, CreatedAt) && multiset(sorted) == multiset(listable)
    requires n <= |sorted|
    ensures forall i :: 0 <= i < |store| && Listable(store[i]) && store[i] !in sorted[..n] ==>
              forall j :: 0 <= j < n ==> sorted[..n][j].createdAt >= store[i].createdAt
  {
    var r := sorted[..n];
    forall i | 0 <= i < |store| && Listable(store[i]) && store[i] !in r
      ensures forall j :: 0 <= j < n ==> r[j].createdAt >= store[i].createdAt
    {
      assert store[i] in multiset(listable);
      StableSort.PrefixKeepsLargest(sorted, CreatedAt, n, store[i]);
    }
  }

  /** One row of the active-room reply. */
  datatype RoomSummary = RoomSummary(
    roomId: string, title: string, roomCode: string, hostName: string, status: Status,
    participantCount: int, maxParticipants: int, createdAt: int)

  function Summaries(rooms: seq<Room>): (r: seq<RoomSummary>)
    ensures |r| == |rooms|
    ensures forall i :: 0 <= i < |rooms| ==>
      r[i] == RoomSummary(rooms[i].roomId, rooms[i].title, rooms[i].roomCode, rooms[i].hostName,
                          rooms[i].status, |rooms[i].participants|, rooms[i].maxParticipants, rooms[i].createdAt)
  {
    seq(|rooms|, i requires 0 <= i < |rooms| =>
      RoomSummary(rooms[i].roomId, rooms[i].title, rooms[i].roomCode, rooms[i].hostName,
                  rooms[i].status, |rooms[i].participants|, rooms[i].maxParticipants, rooms[i].createdAt))
  }

  /* ---------------------------------------------------------------- leave */

  /**
   * Leaving a room: the user's entry is removed; if the user was host and
   * somebody remains, the earliest remaining participant becomes host; a
   * room nobody remains in is deleted (`None`), whatever its status.
   */
  function Leave(room: Room, u: UserId): (r: Option<Room>)
    ensures r.None? <==> |RemoveParticipant(room.participants, u)| == 0
    ensures r.Some? ==> r.value.participants == RemoveParticipant(room.participants, u)
    ensures r.Some? && room.hostId == u ==>
              r.value.hostId == r.value.participants[0].userId && r.value.hostName == r.value.participants[0].username
    ensures r.Some? && room.hostId != u ==> r.value.hostId == room.hostId && r.value.hostName == room.hostName
    ensures r.Some? ==> r.value.(participants := room.participants, hostId := room.hostId, hostName := room.hostName) == room
  {
    var ps := RemoveParticipant(room.participants, u);
    if |ps| == 0 then None
    else if room.hostId == u then Some(room.(participants := ps, hostId := ps[0].userId, hostName := ps[0].username))
    else Some(room.(participants := ps))
  }

  /** The new host after the host leaves is the earliest joiner still present. */
  lemma LeaveHandsToEarliest(room: Room, u: UserId)
    requires room.hostId == u && Leave(room, u).Some?
    ensures exists j :: 0 <= j < |room.participants|
                        && Leave(room, u).value.hostId == room.participants[j].userId
                        && room.participants[j].userId != u
                        && forall i :: 0 <= i < j ==> room.participants[i].userId == u
  {
    RemoveFirstSurvivor(room.participants, u);
  }

  /** Leaving keeps a valid room valid, so the host is always a participant. */
  lemma LeaveKeepsValid(room: Room, n: nat, u: UserId)
    requires Valid(room, n) && Leave(room, u).Some?
    ensures Valid(Leave(room, u).value, n)
  {
    var r := Leave(room, u).value;
    RemoveKeepsUnique(room.participants, u);
    var ps := room.participants;
    if room.hostId != u {
      var h :| 0 <= h < |ps| && ps[h].userId == room.hostId;
      assert ps[h] in r.participants;
    }
    forall i | 0 <= i < |r.participants| ensures ParticipantOk(r.participants[i], r.currentQuestionIndex) {
      assert r.participants[i] in ps;
    }
  }

  datatype LeaveResult = Left(store: seq<Room>) | Deleted(store: seq<Room>)

  /** DELETE leave: the room is saved with the change, or removed from the store when empty. */
  function LeaveRoom(store: seq<Room>, roomId: string, u: UserId): (r: Result<LeaveResult, RestError>)
    ensures FindById(store, roomId).None? <==> r == Failure(NotFound("Live quiz room not found"))
    ensures FindById(store, roomId).Some? <==> r.Success?
    ensures r.Success? ==>
      var i := FindById(store, roomId).value;
      && (r.value.Deleted? <==> Leave(store[i], u).None?)
      && (r.value.Deleted? ==> r.value.store == store[..i] + store[i + 1..])
      && (r.value.Left? ==> r.value.store == store[i := Leave(store[i], u).value])
  {
    match FindById(store, roomId)
    case None => Failure(NotFound("Live quiz room not found"))
    case Some(i) =>
      match Leave(store[i], u)
      case None => Success(Deleted(store[..i] + store[i + 1..]))
      case Some(room) => Success(Left(store[i := room]))
  }

  /**
   * Leaving keeps codes and ids unique; a deleted room's id is gone from the
   * store, and a room that remains stays valid.
   */
  lemma LeaveRoomKeepsStore(store: seq<Room>, roomId: string, u: UserId, n: nat)
    requires LeaveRoom(store, roomId, u).Success?
    ensures var i := FindById(store, roomId).value;
      var after := LeaveRoom(store, roomId, u).value;
      && (UniqueCodes(store) ==> UniqueCodes(after.store))
      && (UniqueRoomIds(store) ==> UniqueRoomIds(after.store))
      && (UniqueRoomIds(store) && after.Deleted? ==>
            forall j :: 0 <= j < |after.store| ==> after.store[j].roomId != roomId)
      && (after.Left? && Valid(store[i], n) ==> Valid(after.store[i], n))
  {
    var i := FindById(store, roomId).value;
    var after := LeaveRoom(store, roomId, u).value;
    if after.Left? {
      if Valid(store[i], n) {
        LeaveKeepsValid(store[i], n, u);
      }
    } else {
      DeleteKeepsUnique(store, i, roomId, after.store);
    }
  }

  /** Deleting the room at `i` keeps codes and ids unique and removes that room's id. */
  lemma DeleteKeepsUnique(store: seq<Room>, i: nat, roomId: string, rest: seq<Room>)
    requires i < |store| && store[i].roomId == roomId && rest == store[..i] + store[i + 1..]
    ensures UniqueCodes(store) ==> UniqueCodes(rest)
    ensures UniqueRoomIds(store) ==> UniqueRoomIds(rest)
    ensures UniqueRoomIds(store) ==> forall j :: 0 <= j < |rest| ==> rest[j].roomId != roomId
  {
    forall a | 0 <= a < |rest| ensures rest[a] == store[if a < i then a else a + 1] {
    }
    if UniqueCodes(store) {
      forall a, b | 0 <= a < b < |rest| ensures rest[a].roomCode != rest[b].roomCode {
        var a', b' := if a < i then a else a + 1, if b < i then b else b + 1;
        assert rest[a] == store[a'] && rest[b] == store[b'];
      }
    }
    if UniqueRoomIds(store) {
      forall a, b | 0 <= a < b < |rest| ensures rest[a].roomId != rest[b].roomId {
        var a', b' := if a < i then a else a + 1, if b < i then b else b + 1;
        assert rest[a] == store[a'] && rest[b] == store[b'];
      }
      forall a | 0 <= a < |rest| ensures rest[a].roomId != roomId {
        var a' := if a < i then a else a + 1;
        assert rest[a] == store[a'] && a' != i;
      }
    }
  }
}

=== FILE: scoring.dfy ===
/**
 * Scoring of one live answer (quiz-back-end/socket/liveQuizSocket.js,
 * `submit-answer`): case-insensitive comparison without trimming, the room's
 * flat `pointsForCorrect`, and a speed bonus of up to 50 points.
 */
module Scoring {
  import Text
  import LiveQuiz

  /** The largest speed bonus. */
  const MaxSpeedBonus: int := 50

  /** Mathematical floor of `a / d`; Dafny's `/` is floor only for a positive divisor. */
  function FloorDiv(a: int, d: int): (q: int)
    requires d != 0
    ensures d > 0 ==> q * d <= a < q * d + d
    ensures d < 0 ==> q * d >= a > q * d + d
  {
    if d > 0 then a / d else (-a) / (-d)
  }

  /**
   * The speed bonus: the share of the limit L (seconds) still remaining when
   * the answer arrives after e milliseconds, times 50, rounded down and never
   * below zero, i.e. max(0, floor(50 * (1000 L - e) / (1000 L))).
   * A zero limit yields 0, as JavaScript does for a positive elapsed time
   * (the division gives minus infinity); no created room has a zero limit.
   */
  function SpeedBonus(elapsedMs: int, limitSec: int): (b: int)
    ensures b >= 0
    ensures b > 0 ==> limitSec != 0 && b == FloorDiv((1000 * limitSec - elapsedMs) * MaxSpeedBonus, 1000 * limitSec)
    ensures limitSec != 0 ==> b >= FloorDiv((1000 * limitSec - elapsedMs) * MaxSpeedBonus, 1000 * limitSec)
  {
    if limitSec == 0 then 0
    else
      var q := FloorDiv((1000 * limitSec - elapsedMs) * MaxSpeedBonus, 1000 * limitSec);
      if q > 0 then q else 0
  }

  /** Division by a positive number is monotone. */
  lemma DivMonotone(a: int, b: int, d: int)
    requires d > 0 && a <= b
    ensures a / d <= b / d
  {
    var qa, qb := a / d, b / d;
    if qa > qb {
      MulMonotone(qb + 1, qa, d);
      assert false;
    }
  }

  lemma MulMonotone(x: int, y: int, d: int)
    requires d > 0 && x <= y
    ensures x * d <= y * d
  {
  }

  lemma DivOfMultiple(m: int, d: int)
    requires d > 0
    ensures (m * d) / d == m
  {
    var q, r := (m * d) / d, (m * d) % d;
    assert m * d == d * q + r && 0 <= r < d;
    assert d * (m - q) == r;
    if q < m {
      MulMonotone(1, m - q, d);
    } else if q > m {
      MulMonotone(m - q, -1, d);
    }
  }

  /** For a positive limit and a non-negative elapsed time the bonus lies in [0, 50]. */
  lemma SpeedBonusBounded(elapsedMs: int, limitSec: int)
    requires limitSec > 0 && elapsedMs >= 0
    ensures 0 <= SpeedBonus(elapsedMs, limitSec) <= MaxSpeedBonus
  {
    var d := 1000 * limitSec;
    var a := (d - elapsedMs) * MaxSpeedBonus;
    DivMonotone(a, MaxSpeedBonus * d, d);
    DivOfMultiple(MaxSpeedBonus, d);
  }

  /** An instant answer earns the whole bonus. */
  lemma SpeedBonusAtZero(limitSec: int)
    requires limitSec > 0
    ensures SpeedBonus(0, limitSec) == MaxSpeedBonus
  {
    var d := 1000 * limitSec;
    assert (d - 0) * MaxSpeedBonus == MaxSpeedBonus * d;
    DivOfMultiple(MaxSpeedBonus, d);
  }

  /** An answer at or after the limit earns no bonus. */
  lemma SpeedBonusAfterLimit(elapsedMs: int, limitSec: int)
    requires limitSec > 0 && elapsedMs >= 1000 * limitSec
    ensures SpeedBonus(elapsedMs, limitSec) == 0
  {
    var d := 1000 * limitSec;
    var a := (d - elapsedMs) * MaxSpeedBonus;
    assert a <= 0;
    DivMonotone(a, 0, d);
  }

  /** A later answer never earns a larger bonus. */
  lemma SpeedBonusNonIncreasing(e1: int, e2: int, limitSec: int)
    requires limitSec > 0 && e1 <= e2
    ensures SpeedBonus(e2, limitSec) <= SpeedBonus(e1, limitSec)
  {
    var d := 1000 * limitSec;
    DivMonotone((d - e2) * MaxSpeedBonus, (d - e1) * MaxSpeedBonus, d);
  }

  /** Live correctness: exact equality after lower-casing both sides, with no trimming. */
  predicate IsCorrect(answer: string, correctAnswer: string)
  {
    Text.Lower(answer) == Text.Lower(correctAnswer)
  }

  /** Live mode does not trim: a trailing blank makes a right answer wrong. */
  lemma LiveDoesNotTrim()
    ensures !IsCorrect("4 ", "4")
    ensures IsCorrect("Paris", "PARIS")
  {
    assert |Text.Lower("4 ")| != |Text.Lower("4")|;
    assert Text.Lower("Paris") == "paris" == Text.Lower("PARIS");
  }

  /** The points a live answer earns. */
  function Points(settings: LiveQuiz.Settings, isCorrect: bool, elapsedMs: int, limitSec: int): (p: int)
    ensures !isCorrect ==> p == 0
    ensures isCorrect && !settings.speedBonus ==> p == settings.pointsForCorrect
    ensures isCorrect && settings.speedBonus ==> p == settings.pointsForCorrect + SpeedBonus(elapsedMs, limitSec)
    ensures isCorrect && settings.speedBonus ==> p >= settings.pointsForCorrect
    ensures isCorrect && settings.speedBonus && limitSec > 0 && elapsedMs >= 0 ==>
              p <= settings.pointsForCorrect + MaxSpeedBonus
  {
    if !isCorrect then 0
    else if settings.speedBonus then
      SpeedBonusBoundedIf(elapsedMs, limitSec);
      settings.pointsForCorrect + SpeedBonus(elapsedMs, limitSec)
    else settings.pointsForCorrect
  }

  lemma SpeedBonusBoundedIf(elapsedMs: int, limitSec: int)
    ensures limitSec > 0 && elapsedMs >= 0 ==> SpeedBonus(elapsedMs, limitSec) <= MaxSpeedBonus
  {
    if limitSec > 0 && elapsedMs >= 0 {
      SpeedBonusBounded(elapsedMs, limitSec);
    }
  }

  /**
   * The worked example: 100 points, bonus on, 30 s limit. A right answer
   * earns 150 at once and 100 at the limit; a wrong one earns 0.
   */
  lemma DefaultScoringExample(elapsedMs: int)
    ensures var s := LiveQuiz.Settings(100, true, true);
      && Points(s, true, 0, 30) == 150
      && Points(s, true, 15000, 30) == 125
      && Points(s, true, 30000, 30) == 100
      && Points(s, false, elapsedMs, 30) == 0
  {
    SpeedBonusAtZero(30);
    SpeedBonusAtHalf();
    SpeedBonusAfterLimit(30000, 30);
  }

  /** Half the limit used up earns half the bonus: 15 s of 30 s gives 25. */
  lemma SpeedBonusAtHalf()
    ensures SpeedBonus(15000, 30) == 25
  {
    assert (1000 * 30 - 15000) * MaxSpeedBonus == 25 * 30000;
    DivOfMultiple(25, 30000);
  }
}

=== FILE: session.dfy ===
/**
 * The live-quiz session state machine (quiz-back-end/socket/liveQuizSocket.js).
 *
 * Each socket handler is a pure function from the stored room to the room
 * it saves, the events it emits and the timer it arms. A timer is only
 * returned; the environment decides when it fires, which is modelled by
 * calling `StartNextQuestion` or `EndCurrentQuestion` later. The sender of a
 * message is an already authenticated user id.
 */
module Session {
  import opened Wrappers
  import opened LiveQuiz
  import QuizContent
  import Scoring
  import StableSort

  /** Timer delays in milliseconds. */
  const StartDelayMs: int := 3000
  const SettleDelayMs: int := 2000
  const ReviewDelayMs: int := 5000
  const CleanupDelayMs: int := 300000
  /** How many leaderboard entries a question's results carry. */
  const TopEntries: int := 5

  datatype TimerAction = NextQuestion | EndQuestion | DeleteRoom
  datatype Timer = Timer(action: TimerAction, delayMs: int)

  datatype ParticipantView = ParticipantView(username: string, score: int)

  /** `room-joined` for the sender, and the count `participant-joined` tells the others. */
  datatype RoomSnapshot = RoomSnapshot(
    status: Status,
    currentQuestionIndex: int,
    totalQuestions: int,
    participants: seq<ParticipantView>,
    isHost: bool,
    participantCount: int)

  /** The `new-question` payload: the question without its correct answer. */
  datatype QuestionBroadcast = QuestionBroadcast(
    questionIndex: int,
    question: string,
    qtype: QuestionContent,
    options: seq<string>,
    timeLimit: int,
    totalQuestions: int)

  type QuestionContent = QuizContent.QuestionType

  datatype Outbound =
    | QuizStarting(message: string, countdown: int)
    | NewQuestion(payload: QuestionBroadcast)
    | AnswerSubmitted(isCorrect: bool, points: int, totalScore: int)
    | QuestionEnded(correctAnswer: Option<string>, answeredCount: int, totalParticipants: int,
                    leaderboard: seq<LeaderboardEntry>)
    | QuizFinished(leaderboard: seq<LeaderboardEntry>, totalQuestions: int, quizTitle: string)

  /** What a handler leaves behind: the saved room, what it emitted, the timer it armed. */
  datatype Step = Step(room: Room, emitted: seq<Outbound>, timer: Option<Timer>)

  datatype SocketError =
    | RoomNotFound
    | NotInRoom
    | NotHost
    | AlreadyStarted
    | CannotSubmit
    | NotAParticipant
    | AlreadyAnswered
    | SubmitFailed

  /** The `error` event's message for each rejection. */
  function ErrorMessage(e: SocketError): string
  {
    match e
    case RoomNotFound => "Room not found"
    case NotInRoom => "You are not a participant in this room"
    case NotHost => "Only the host can start the quiz"
    case AlreadyStarted => "Quiz already started or finished"
    case CannotSubmit => "Cannot submit answer at this time"
    case NotAParticipant => "You are not a participant"
    case AlreadyAnswered => "You already answered this question"
    case SubmitFailed => "Failed to submit answer"
  }

  /* ---------------------------------------------------------------- counting answers */

  /** How many participants have an answer for question `k`. */
  function AnsweredCount(ps: seq<Participant>, k: int): (n: nat)
    ensures n <= |ps|
    ensures n == |ps| <==> forall i :: 0 <= i < |ps| ==> AnsweredIndex(ps[i].answers, k)
  {
    if |ps| == 0 then 0
    else
      var rest := AnsweredCount(ps[1..], k);
      assert forall i :: 1 <= i < |ps| ==> ps[i] == ps[1..][i - 1];
      (if AnsweredIndex(ps[0].answers, k) then 1 else 0) + rest
  }

  /** The positions of the participants who have an answer for question `k`. */
  ghost function AnsweredAt(ps: seq<Participant>, k: int): set<int>
  {
    set i | 0 <= i < |ps| && AnsweredIndex(ps[i].answers, k)
  }

  /** The count `question-ended` reports is the number of participants who answered. */
  lemma AnsweredCountIsTheNumberAnswered(ps: seq<Participant>, k: int)
    ensures AnsweredCount(ps, k) == |AnsweredAt(ps, k)|
  {
    AnsweredFromCount(ps, k, 0);
    assert AnsweredAt(ps, k) == AnsweredFrom(ps, k, 0);
  }

  /** `AnsweredAt` with every position moved up by `base`. */
  ghost function AnsweredFrom(ps: seq<Participant>, k: int, base: int): set<int>
  {
    set i | base <= i < base + |ps| && AnsweredShifted(ps, k, base, i)
  }

  predicate AnsweredShifted(ps: seq<Participant>, k: int, base: int, i: int)
  {
    base <= i < base + |ps| && AnsweredIndex(ps[i - base].answers, k)
  }

  lemma {:induction false} AnsweredFromCount(ps: seq<Participant>, k: int, base: int)
    ensures AnsweredCount(ps, k) == |AnsweredFrom(ps, k, base)|
    decreases |ps|
  {
    if |ps| == 0 {
      assert AnsweredFrom(ps, k, base) == {};
    } else {
      var tail := AnsweredFrom(ps[1..], k, base + 1);
      AnsweredFromCount(ps[1..], k, base + 1);
      AnsweredFromSplit(ps, k, base);
      assert base !in tail;
    }
  }

  /** The first position answers for itself; the rest is the tail moved up by one. */
  lemma AnsweredFromSplit(ps: seq<Participant>, k: int, base: int)
    requires |ps| > 0
    ensures AnsweredFrom(ps, k, base)
            == (if AnsweredIndex(ps[0].answers, k) then {base} else {}) + AnsweredFrom(ps[1..], k, base + 1)
  {
    forall i | base + 1 <= i < base + |ps|
      ensures AnsweredShifted(ps[1..], k, base + 1, i) == AnsweredShifted(ps, k, base, i)
    {
      assert ps[1..][i - (base + 1)] == ps[i - base];
    }
  }

  /* ---------------------------------------------------------------- join-live-quiz */

  /**
   * `join-live-quiz`: only a participant may attach to the room's channel;
   * the reply is a snapshot of the room and nothing is saved.
   */
  function JoinLiveQuiz(room: Option<Room>, questions: seq<QuizContent.Question>, sender: UserId)
    : (r: Result<RoomSnapshot, SocketError>)
    ensures room.None? ==> r == Failure(RoomNotFound)
    ensures room.Some? ==> (r.Success? <==> Joined(room.value.participants, sender))
    ensures room.Some? && r.Failure? ==> r.error == NotInRoom
    ensures r.Success? ==>
      && r.value.isHost == (room.value.hostId == sender)
      && r.value.status == room.value.status
      && r.value.currentQuestionIndex == room.value.currentQuestionIndex
      && r.value.totalQuestions == |questions|
      && r.value.participantCount == |room.value.participants|
      && |r.value.participants| == |room.value.participants|
      && forall i :: 0 <= i < |r.value.participants| ==>
           r.value.participants[i] == ParticipantView(room.value.participants[i].username,
                                                      room.value.participants[i].score)
  {
    if room.None? then Failure(RoomNotFound)
    else
      var rm := room.value;
      if FindParticipant(rm.participants, sender).None? then Failure(NotInRoom)
      else
        var views := seq(|rm.participants|, i requires 0 <= i < |rm.participants| =>
                           ParticipantView(rm.participants[i].username, rm.participants[i].score));
        Success(RoomSnapshot(rm.status, rm.currentQuestionIndex, |questions|, views,
                             rm.hostId == sender, |rm.participants|))
  }

  /* ---------------------------------------------------------------- start-quiz */

  /**
   * `start-quiz`: only the host, only while waiting. On success only the
   * status and `startedAt` change, and the first question is three seconds away.
   */
  function StartQuiz(room: Option<Room>, sender: UserId, now: int): (r: Result<Step, SocketError>)
    ensures room.None? ==> r == Failure(RoomNotFound)
    ensures room.Some? && room.value.hostId != sender ==> r == Failure(NotHost)
    ensures room.Some? && room.value.hostId == sender && room.value.status != Waiting ==>
              r == Failure(AlreadyStarted)
    ensures r.Success? <==> room.Some? && room.value.hostId == sender && room.value.status == Waiting
    ensures r.Success? ==>
      && r.value.room.status == Starting
      && r.value.room.startedAt == Some(now)
      && r.value.room.(status := Waiting, startedAt := room.value.startedAt) == room.value
      && r.value.timer == Some(Timer(NextQuestion, StartDelayMs))
  {
    if room.None? then Failure(RoomNotFound)
    else if room.value.hostId != sender then Failure(NotHost)
    else if room.value.status != Waiting then Failure(AlreadyStarted)
    else
      Success(Step(room.value.(status := Starting, startedAt := Some(now)),
                   [QuizStarting("Quiz starting in 3 seconds...", 3)],
                   Some(Timer(NextQuestion, StartDelayMs))))
  }

  /* ---------------------------------------------------------------- submit-answer */

  /**
   * `submit-answer` with the time since the question started, in
   * milliseconds, and the current time for `answeredAt`.
   */
  function SubmitAnswer(room: Option<Room>, questions: seq<QuizContent.Question>, sender: UserId,
                        answer: string, elapsedMs: int, now: int): (r: Result<Step, SocketError>)
    ensures room.None? || room.value.status != QuestionActive ==> r == Failure(CannotSubmit)
    ensures room.Some? && room.value.status == QuestionActive && !Joined(room.value.participants, sender) ==>
              r == Failure(NotAParticipant)
    ensures room.Some? && room.value.status == QuestionActive && Joined(room.value.participants, sender) &&
            AnsweredIndex(room.value.participants[FindParticipant(room.value.participants, sender).value].answers,
                          room.value.currentQuestionIndex) ==>
              r == Failure(AlreadyAnswered)
    ensures r.Success? <==>
      && room.Some? && room.value.status == QuestionActive && Joined(room.value.participants, sender)
      && !AnsweredIndex(room.value.participants[FindParticipant(room.value.participants, sender).value].answers,
                        room.value.currentQuestionIndex)
      && 0 <= room.value.currentQuestionIndex < |questions|
      && questions[room.value.currentQuestionIndex].correctAnswer.Some?
    ensures r.Failure? ==> r.error in {CannotSubmit, NotAParticipant, AlreadyAnswered, SubmitFailed}
    ensures r.Success? ==> SubmissionAccepted(room.value, questions, sender, answer, elapsedMs, now, r.value)
  {
    if room.None? || room.value.status != QuestionActive then Failure(CannotSubmit)
    else
      var rm := room.value;
      var k := rm.currentQuestionIndex;
      match FindParticipant(rm.participants, sender)
      case None => Failure(NotAParticipant)
      case Some(i) =>
        var p := rm.participants[i];
        if AnsweredIndex(p.answers, k) then Failure(AlreadyAnswered)
        else if !(0 <= k < |questions|) || questions[k].correctAnswer.None? then Failure(SubmitFailed)
        else
          var isCorrect := Scoring.IsCorrect(answer, questions[k].correctAnswer.value);
          var points := Scoring.Points(rm.settings, isCorrect, elapsedMs, rm.questionTimeLimit);
          var p' := p.(answers := p.answers + [AnswerRecord(k, answer, now, isCorrect, points)],
                       score := p.score + points);
          var ps' := rm.participants[i := p'];
          var timer := if AnsweredCount(ps', k) == |ps'| then Some(Timer(EndQuestion, SettleDelayMs)) else None;
          Success(Step(rm.(participants := ps'), [AnswerSubmitted(isCorrect, points, p'.score)], timer))
  }

  /**
   * How long after the question opened an answer arrives. Without a start
   * time the difference is taken from zero, as subtracting `null` from a
   * date does; only an active question is answered, and it has a start time.
   */
  function ElapsedMs(room: Room, now: int): (e: int)
    ensures room.questionStartTime.Some? ==> e + room.questionStartTime.value == now
  {
    match room.questionStartTime
    case Some(t) => now - t
    case None => now
  }

  /**
   * What an accepted submission does: the sender (found at position `i`)
   * gains exactly one record for the current question and its points;
   * nobody else and nothing else changes; the sender alone is told the
   * result; the early end is armed exactly when everyone has answered.
   */
  ghost predicate SubmissionAccepted(rm: Room, questions: seq<QuizContent.Question>, sender: UserId,
                                     answer: string, elapsedMs: int, now: int, st: Step)
  {
    var k := rm.currentQuestionIndex;
    var ps, ps' := rm.participants, st.room.participants;
    && rm.status == QuestionActive
    && 0 <= k < |questions| && questions[k].correctAnswer.Some?
    && FindParticipant(ps, sender).Some?
    && var i := FindParticipant(ps, sender).value;
    && var isCorrect := Scoring.IsCorrect(answer, questions[k].correctAnswer.value);
    && var points := Scoring.Points(rm.settings, isCorrect, elapsedMs, rm.questionTimeLimit);
    && !AnsweredIndex(ps[i].answers, k)
    && |ps'| == |ps|
    && (forall j :: 0 <= j < |ps| && j != i ==> ps'[j] == ps[j])
    && ps'[i].answers == ps[i].answers + [AnswerRecord(k, answer, now, isCorrect, points)]
    && ps'[i].score == ps[i].score + points
    && ps'[i].(answers := ps[i].answers, score := ps[i].score) == ps[i]
    && st.room.(participants := ps) == rm
    && st.emitted == [AnswerSubmitted(isCorrect, points, ps'[i].score)]
    && (st.timer.Some? <==> AnsweredCount(ps', k) == |ps'|)
    && (st.timer.Some? ==> st.timer.value == Timer(EndQuestion, SettleDelayMs))
  }

  /* ---------------------------------------------------------------- get-leaderboard */

  /** `get-leaderboard`: the full ranking, for any status. */
  function GetLeaderboard(room: Option<Room>): (r: Result<seq<LeaderboardEntry>, SocketError>)
    ensures room.None? <==> r == Failure(RoomNotFound)
    ensures room.Some? <==> r.Success?
    ensures r.Success? ==> |r.value| == |room.value.participants|
    ensures r.Success? ==> forall i :: 0 <= i < |r.value| ==> r.value[i].rank == i + 1
    ensures r.Success? ==> forall i, j :: 0 <= i < j < |r.value| ==> r.value[i].score >= r.value[j].score
    ensures r.Success? ==>
              StableSort.IsStableDesc(Standings(room.value.participants), EntryStandings(r.value), ScoreOf)
  {
    if room.None? then Failure(RoomNotFound) else Success(Leaderboard(room.value.participants))
  }

  /* ---------------------------------------------------------------- timers */

  /**
   * The question as broadcast: everything but the correct answer and the
   * points. The quiz is a loaded document, so missing options read as `[]`.
   */
  function Broadcast(q: QuizContent.Question, index: int, timeLimit: int, total: int): QuestionBroadcast
  {
    QuestionBroadcast(index, q.text, q.qtype, q.options.GetOr([]), timeLimit, total)
  }

  /**
   * `endQuiz`: the room is finished, everyone is ranked, and the room is
   * deleted five minutes later. `totalQuestions` is the last index plus one.
   */
  function EndQuiz(room: Room, now: int): (st: Step)
    ensures st.room.status == Finished && st.room.finishedAt == Some(now)
    ensures st.room.(status := room.status, finishedAt := room.finishedAt) == room
    ensures st.emitted == [QuizFinished(Leaderboard(room.participants), room.currentQuestionIndex + 1, room.title)]
    ensures st.timer == Some(Timer(DeleteRoom, CleanupDelayMs))
  {
    Step(room.(status := Finished, finishedAt := Some(now)),
         [QuizFinished(Leaderboard(room.participants), room.currentQuestionIndex + 1, room.title)],
         Some(Timer(DeleteRoom, CleanupDelayMs)))
  }

  /**
   * `startNextQuestion`, fired by the start countdown or the review delay
   * (the only states it runs from). Past the last question it ends the quiz;
   * otherwise it moves to the next index and activates it.
   */
  function StartNextQuestion(room: Room, questions: seq<QuizContent.Question>, now: int): (st: Step)
    requires room.status == Starting || room.status == QuestionReview
    ensures st.room.currentQuestionIndex >= room.currentQuestionIndex
    ensures room.currentQuestionIndex + 1 >= |questions| ==> st == EndQuiz(room, now)
    ensures room.currentQuestionIndex + 1 < |questions| ==>
      && st.room.currentQuestionIndex == room.currentQuestionIndex + 1
      && st.room.status == QuestionActive
      && st.room.questionStartTime == Some(now)
      && st.room.(currentQuestionIndex := room.currentQuestionIndex, status := room.status,
                  questionStartTime := room.questionStartTime) == room
    ensures 0 <= room.currentQuestionIndex + 1 < |questions| ==>
      && st.emitted == [NewQuestion(Broadcast(questions[room.currentQuestionIndex + 1],
                                              room.currentQuestionIndex + 1, room.questionTimeLimit, |questions|))]
      && st.timer == Some(Timer(EndQuestion, room.questionTimeLimit * 1000))
  {
    var next := room.currentQuestionIndex + 1;
    if next >= |questions| then EndQuiz(room, now)
    else
      var room' := room.(currentQuestionIndex := next, status := QuestionActive, questionStartTime := Some(now));
      if next < 0 then Step(room', [], None)
      else
        Step(room', [NewQuestion(Broadcast(questions[next], next, room.questionTimeLimit, |questions|))],
             Some(Timer(EndQuestion, room.questionTimeLimit * 1000)))
  }

  /** The first `TopEntries` entries, or all of them when there are fewer. */
  function Top(board: seq<LeaderboardEntry>): (r: seq<LeaderboardEntry>)
    ensures |r| == if |board| < TopEntries then |board| else TopEntries
    ensures r == board[..|r|]
  {
    if |board| < TopEntries then board else board[..TopEntries]
  }

  /**
   * `endCurrentQuestion`, fired by the question timer or the early end:
   * does nothing unless a question is active; otherwise moves to review and
   * reports the answer, how many answered out of how many, and the top five.
   */
  function EndCurrentQuestion(room: Room, questions: seq<QuizContent.Question>): (st: Step)
    ensures room.status != QuestionActive ==> st == Step(room, [], None)
    ensures room.status == QuestionActive ==> st.room == room.(status := QuestionReview)
    ensures room.status == QuestionActive && 0 <= room.currentQuestionIndex < |questions| ==>
      && |st.emitted| == 1 && st.emitted[0].QuestionEnded?
      && st.emitted[0].correctAnswer == questions[room.currentQuestionIndex].correctAnswer
      && st.emitted[0].answeredCount <= st.emitted[0].totalParticipants == |room.participants|
      && st.emitted[0].answeredCount == AnsweredCount(room.participants, room.currentQuestionIndex)
      && st.emitted[0].leaderboard == Top(Leaderboard(room.participants))
      && st.timer == Some(Timer(NextQuestion, ReviewDelayMs))
  {
    if room.status != QuestionActive then Step(room, [], None)
    else
      var room' := room.(status := QuestionReview);
      var k := room.currentQuestionIndex;
      if !(0 <= k < |questions|) then Step(room', [], None)
      else
        var board := Leaderboard(room.participants);
        var top := Top(board);
        var ended := QuestionEnded(questions[k].correctAnswer, AnsweredCount(room.participants, k),
                                   |room.participants|, top);
        Step(room', [ended], Some(Timer(NextQuestion, ReviewDelayMs)))
  }

  /** Ending a question twice (timer and early end racing) changes the room once. */
  lemma EndQuestionIdempotent(room: Room, questions: seq<QuizContent.Question>)
    ensures var once := EndCurrentQuestion(room, questions);
      EndCurrentQuestion(once.room, questions) == Step(once.room, [], None)
  {
  }
}

=== FILE: session_trace.dfy ===
/**
 * The live session as a transition system. Requests from users and the
 * firing of armed timers are events; the environment chooses their order.
 * Every reachable room stays `Valid`, its question index never moves back,
 * and with a non-negative `pointsForCorrect` no participant's score drops.
 */
module SessionTrace {
  import opened Wrappers
  import opened LiveQuiz
  import opened Session
  import Rooms
  import Scoring
  import Text
  import StableSort
  import QuizContent

  datatype Event =
    | JoinByCode(user: UserId, username: string)
    | LeaveRoom(user: UserId)
    | StartRequest(sender: UserId)
    | AnswerRequest(sender: UserId, answer: string)
    | NextQuestionFires
    | EndQuestionFires
    | CleanupFires

  /**
   * The timers of `startNextQuestion` are armed only on entering `Starting`
   * or `QuestionReview`, and the cleanup timer only on finishing; the other
   * events can arrive at any time.
   */
  predicate Enabled(room: Room, ev: Event)
  {
    match ev
    case NextQuestionFires => room.status == Starting || room.status == QuestionReview
    case CleanupFires => room.status == Finished
    case _ => true
  }

  /** The room after one event at time `now`; `None` when the room is deleted. */
  function Step(room: Room, qs: seq<QuizContent.Question>, ev: Event, now: int): Option<Room>
    requires Enabled(room, ev)
  {
    match ev
    case JoinByCode(u, name) =>
      if room.status != Waiting then Some(room)
      else (match AddParticipant(room, u, name, now)
            case Added(r) => Some(r)
            case _ => Some(room))
    case LeaveRoom(u) => Rooms.Leave(room, u)
    case StartRequest(sender) =>
      (match StartQuiz(Some(room), sender, now)
       case Success(st) => Some(st.room)
       case Failure(_) => Some(room))
    case AnswerRequest(sender, answer) =>
      (match SubmitAnswer(Some(room), qs, sender, answer, ElapsedMs(room, now), now)
       case Success(st) => Some(st.room)
       case Failure(_) => Some(room))
    case NextQuestionFires => Some(StartNextQuestion(room, qs, now).room)
    case EndQuestionFires => Some(EndCurrentQuestion(room, qs).room)
    case CleanupFires => None
  }

  /* ---------------------------------------------------------------- one handler at a time */

  lemma ParticipantOkLater(p: Participant, current: int, later: int)
    requires ParticipantOk(p, current) && current <= later
    ensures ParticipantOk(p, later)
  {
  }

  lemma StartKeepsValid(room: Room, n: nat, sender: UserId, now: int)
    requires Valid(room, n) && StartQuiz(Some(room), sender, now).Success?
    ensures Valid(StartQuiz(Some(room), sender, now).value.room, n)
  {
    var r := StartQuiz(Some(room), sender, now).value.room;
    assert r.participants == room.participants;
  }

  /** Appending a record for a question not yet answered keeps a participant consistent. */
  lemma RecordKeepsParticipantOk(p: Participant, k: int, rec: AnswerRecord)
    requires ParticipantOk(p, k) && 0 <= k && rec.questionIndex == k && !AnsweredIndex(p.answers, k)
    ensures ParticipantOk(p.(answers := p.answers + [rec], score := p.score + rec.points), k)
  {
    var as' := p.answers + [rec];
    assert as'[..|as'| - 1] == p.answers;
  }

  /** Recording an answer keeps the score equal to the recorded points and one answer per question. */
  lemma SubmitKeepsValid(room: Room, qs: seq<QuizContent.Question>, sender: UserId, answer: string,
                         elapsedMs: int, now: int)
    requires Valid(room, |qs|) && SubmitAnswer(Some(room), qs, sender, answer, elapsedMs, now).Success?
    ensures Valid(SubmitAnswer(Some(room), qs, sender, answer, elapsedMs, now).value.room, |qs|)
  {
    var st := SubmitAnswer(Some(room), qs, sender, answer, elapsedMs, now).value;
    assert SubmissionAccepted(room, qs, sender, answer, elapsedMs, now, st);
    var k := room.currentQuestionIndex;
    var ps, ps' := room.participants, st.room.participants;
    var i := FindParticipant(ps, sender).value;
    var p, p' := ps[i], ps'[i];
    var rec := p'.answers[|p.answers|];
    assert p'.answers == p.answers + [rec];
    assert p' == p.(answers := p.answers + [rec], score := p.score + rec.points);
    RecordKeepsParticipantOk(p, k, rec);
    forall j | 0 <= j < |ps'| ensures ps'[j].userId == ps[j].userId && ParticipantOk(ps'[j], k) {
    }
    var h :| 0 <= h < |ps| && ps[h].userId == room.hostId;
    assert ps'[h].userId == room.hostId;
  }

  lemma NextKeepsValid(room: Room, qs: seq<QuizContent.Question>, now: int)
    requires Valid(room, |qs|) && (room.status == Starting || room.status == QuestionReview)
    ensures Valid(StartNextQuestion(room, qs, now).room, |qs|)
  {
    var r := StartNextQuestion(room, qs, now).room;
    assert r.participants == room.participants;
    forall j | 0 <= j < |r.participants| ensures ParticipantOk(r.participants[j], r.currentQuestionIndex) {
      ParticipantOkLater(room.participants[j], room.currentQuestionIndex, r.currentQuestionIndex);
    }
  }

  lemma EndKeepsValid(room: Room, qs: seq<QuizContent.Question>)
    requires Valid(room, |qs|)
    ensures Valid(EndCurrentQuestion(room, qs).room, |qs|)
  {
  }

  /* ---------------------------------------------------------------- any event */

  /** Every enabled event keeps a valid room valid, or deletes it. */
  lemma StepKeepsValid(room: Room, qs: seq<QuizContent.Question>, ev: Event, now: int)
    requires Valid(room, |qs|) && Enabled(room, ev)
    ensures Step(room, qs, ev, now).None? || Valid(Step(room, qs, ev, now).value, |qs|)
  {
    match ev
    case JoinByCode(u, name) =>
      if room.status == Waiting && AddParticipant(room, u, name, now).Added? {
        AddKeepsValid(room, |qs|, u, name, now);
      }
    case LeaveRoom(u) =>
      if Rooms.Leave(room, u).Some? {
        Rooms.LeaveKeepsValid(room, |qs|, u);
      }
    case StartRequest(sender) =>
      if StartQuiz(Some(room), sender, now).Success? {
        StartKeepsValid(room, |qs|, sender, now);
      }
    case AnswerRequest(sender, answer) =>
      var elapsedMs := ElapsedMs(room, now);
      if SubmitAnswer(Some(room), qs, sender, answer, elapsedMs, now).Success? {
        SubmitKeepsValid(room, qs, sender, answer, elapsedMs, now);
      }
    case NextQuestionFires =>
      NextKeepsValid(room, qs, now);
    case EndQuestionFires =>
      EndKeepsValid(room, qs);
    case CleanupFires =>
  }

  /** The question index never moves back. */
  lemma StepIndexForward(room: Room, qs: seq<QuizContent.Question>, ev: Event, now: int)
    requires Enabled(room, ev) && Step(room, qs, ev, now).Some?
    ensures Step(room, qs, ev, now).value.currentQuestionIndex >= room.currentQuestionIndex
  {
  }

  /** The score `u` has in `ps`, when `u` is in it. */
  function ScoreIn(ps: seq<Participant>, u: UserId): int
    requires Joined(ps, u)
  {
    ps[FindParticipant(ps, u).value].score
  }

  /** A participant who stays in the room never loses points when correct answers earn a non-negative amount. */
  lemma StepScoresNeverDrop(room: Room, qs: seq<QuizContent.Question>, ev: Event, now: int, u: UserId)
    requires Valid(room, |qs|) && Enabled(room, ev) && room.settings.pointsForCorrect >= 0
    requires Step(room, qs, ev, now).Some?
    requires Joined(room.participants, u) && Joined(Step(room, qs, ev, now).value.participants, u)
    ensures ScoreIn(Step(room, qs, ev, now).value.participants, u) >= ScoreIn(room.participants, u)
  {
    match ev
    case AnswerRequest(sender, answer) =>
      var elapsedMs := ElapsedMs(room, now);
      if SubmitAnswer(Some(room), qs, sender, answer, elapsedMs, now).Success? {
        SubmitScoresNeverDrop(room, qs, sender, answer, elapsedMs, now, u);
      }
    case JoinByCode(v, name) =>
      if room.status == Waiting && AddParticipant(room, v, name, now).Added? {
        JoinScoresKept(room, |qs|, v, name, now, u);
      }
    case LeaveRoom(v) =>
      LeaveScoresKept(room, |qs|, v, u);
    case _ =>
  }

  lemma SubmitScoresNeverDrop(room: Room, qs: seq<QuizContent.Question>, sender: UserId, answer: string,
                              elapsedMs: int, now: int, u: UserId)
    requires Valid(room, |qs|) && room.settings.pointsForCorrect >= 0 && Joined(room.participants, u)
    requires SubmitAnswer(Some(room), qs, sender, answer, elapsedMs, now).Success?
    ensures var r := SubmitAnswer(Some(room), qs, sender, answer, elapsedMs, now).value.room;
      Joined(r.participants, u) && ScoreIn(r.participants, u) >= ScoreIn(room.participants, u)
  {
    var st := SubmitAnswer(Some(room), qs, sender, answer, elapsedMs, now).value;
    assert SubmissionAccepted(room, qs, sender, answer, elapsedMs, now, st);
    SubmitKeepsValid(room, qs, sender, answer, elapsedMs, now);
    var i := FindParticipant(room.participants, u).value;
    assert st.room.participants[i].userId == u;
    FoundIsOnly(st.room.participants, u, i);
  }

  lemma JoinScoresKept(room: Room, n: nat, v: UserId, name: string, now: int, u: UserId)
    requires Valid(room, n) && AddParticipant(room, v, name, now).Added? && Joined(room.participants, u)
    ensures var r := AddParticipant(room, v, name, now).room;
      Joined(r.participants, u) && ScoreIn(r.participants, u) == ScoreIn(room.participants, u)
  {
    var r := AddParticipant(room, v, name, now).room;
    var i := FindParticipant(room.participants, u).value;
    assert r.participants[i] == room.participants[i];
    AddKeepsValid(room, n, v, name, now);
    FoundIsOnly(r.participants, u, i);
  }

  lemma LeaveScoresKept(room: Room, n: nat, v: UserId, u: UserId)
    requires Valid(room, n) && Rooms.Leave(room, v).Some? && Joined(room.participants, u)
    requires Joined(Rooms.Leave(room, v).value.participants, u)
    ensures ScoreIn(Rooms.Leave(room, v).value.participants, u) == ScoreIn(room.participants, u)
  {
    var r := Rooms.Leave(room, v).value;
    var j := FindParticipant(r.participants, u).value;
    assert r.participants[j] in room.participants;
    var m :| 0 <= m < |room.participants| && room.participants[m] == r.participants[j];
    FoundIsOnly(room.participants, u, m);
  }

  /* ---------------------------------------------------------------- whole traces */

  /** Runs the events in order; an event the environment could not produce in that state is skipped. */
  function Run(room: Room, qs: seq<QuizContent.Question>, evs: seq<(Event, int)>): Option<Room>
    decreases |evs|
  {
    if |evs| == 0 then Some(room)
    else if !Enabled(room, evs[0].0) then Run(room, qs, evs[1..])
    else
      match Step(room, qs, evs[0].0, evs[0].1)
      case None => None
      case Some(r) => Run(r, qs, evs[1..])
  }

  /**
   * From a valid room, every sequence of requests and timer firings leads
   * to a valid room (so within capacity, unique ids, score equal to the
   * recorded points, never `InProgress`) or to its deletion, and the
   * question index only moves forward.
   */
  lemma {:induction false} RunKeepsValid(room: Room, qs: seq<QuizContent.Question>, evs: seq<(Event, int)>)
    requires Valid(room, |qs|)
    ensures Run(room, qs, evs).None? || Valid(Run(room, qs, evs).value, |qs|)
    ensures Run(room, qs, evs).Some? ==> Run(room, qs, evs).value.currentQuestionIndex >= room.currentQuestionIndex
    decreases |evs|
  {
    if |evs| > 0 {
      if !Enabled(room, evs[0].0) {
        RunKeepsValid(room, qs, evs[1..]);
      } else {
        StepKeepsValid(room, qs, evs[0].0, evs[0].1);
        var next := Step(room, qs, evs[0].0, evs[0].1);
        if next.Some? {
          StepIndexForward(room, qs, evs[0].0, evs[0].1);
          RunKeepsValid(next.value, qs, evs[1..]);
        }
      }
    }
  }

  /* ---------------------------------------------------------------- a worked session */

  /** One multiple-choice question whose answer is "4". */
  function SampleQuestions(): seq<QuizContent.Question>
  {
    [QuizContent.Question("2+2?", QuizContent.MCQ, Some(["3", "4"]), Some("4"), Some(1))]
  }

  /** A waiting room with the host "A" and the guest "B", default settings. */
  function SampleRoom(): Room
  {
    Room("r1", "Sums", "A", "Ann", "q1", "ABC123", Waiting, BeforeFirstQuestion, None, 30,
         [Participant("A", "Ann", 0, 0, []), Participant("B", "Bob", 1, 0, [])],
         50, Settings(100, true, true), 0, None, None)
  }

  function SampleActive(): Room
  {
    SampleRoom().(status := QuestionActive, startedAt := Some(10), currentQuestionIndex := 0,
                  questionStartTime := Some(3010))
  }

  function SampleHostAnswered(): Room
  {
    SampleActive().(participants := [Participant("A", "Ann", 0, 150, [AnswerRecord(0, "4", 3010, true, 150)]),
                                     SampleRoom().participants[1]])
  }

  function SampleBothAnswered(): Room
  {
    SampleHostAnswered().(participants := [SampleHostAnswered().participants[0],
                                           Participant("B", "Bob", 1, 0, [AnswerRecord(0, "5", 3810, false, 0)])])
  }

  function SampleFinished(): Room
  {
    SampleBothAnswered().(status := Finished, finishedAt := Some(10810))
  }

  function SampleEvents(): seq<(Event, int)>
  {
    [(StartRequest("A"), 10), (NextQuestionFires, 3010), (AnswerRequest("A", "4"), 3010),
     (AnswerRequest("B", "5"), 3810), (EndQuestionFires, 5810), (NextQuestionFires, 10810)]
  }

  /** The host starts the room, and the countdown opens the only question. */
  lemma SampleOpens()
    ensures Valid(SampleRoom(), |SampleQuestions()|)
    ensures Step(SampleRoom(), SampleQuestions(), StartRequest("A"), 10)
              == Some(SampleRoom().(status := Starting, startedAt := Some(10)))
    ensures Step(SampleRoom().(status := Starting, startedAt := Some(10)), SampleQuestions(), NextQuestionFires, 3010)
              == Some(SampleActive())
  {
    assert SampleRoom().participants[0].userId != SampleRoom().participants[1].userId;
  }

  /** The host's immediate right answer earns the full 150 points and does not end the question. */
  lemma SampleHostAnswers()
    ensures Step(SampleActive(), SampleQuestions(), AnswerRequest("A", "4"), 3010) == Some(SampleHostAnswered())
    ensures SubmitAnswer(Some(SampleActive()), SampleQuestions(), "A", "4", 0, 3010).Success?
    ensures SubmitAnswer(Some(SampleActive()), SampleQuestions(), "A", "4", 0, 3010).value.timer == None
  {
    var rm, qs := SampleActive(), SampleQuestions();
    var st := SubmitAnswer(Some(rm), qs, "A", "4", 0, 3010);
    assert FindParticipant(rm.participants, "A") == Some(0);
    assert Scoring.IsCorrect("4", "4");
    Scoring.DefaultScoringExample(0);
    assert st.Success?;
    var after := SampleHostAnswered().participants;
    assert AnsweredIndex(after[0].answers, 0) by { assert after[0].answers[0].questionIndex == 0; }
    assert after[1..] == [after[1]];
    assert AnsweredCount(after, 0) == 1;
    assert rm.participants[0 := after[0]] == after;
    assert SubmissionAccepted(rm, qs, "A", "4", 0, 3010, st.value);
    var ps' := st.value.room.participants;
    assert |ps'| == 2;
    assert ps'[1] == after[1];
    assert ps'[0].answers == after[0].answers;
    assert ps'[0].score == 150;
    assert ps'[0] == after[0];
    assert ps' == after;
  }

  /** The guest's wrong answer earns nothing, and as the last answer it arms the early end. */
  lemma SampleGuestAnswers()
    ensures Step(SampleHostAnswered(), SampleQuestions(), AnswerRequest("B", "5"), 3810)
              == Some(SampleBothAnswered())
    ensures SubmitAnswer(Some(SampleHostAnswered()), SampleQuestions(), "B", "5", 800, 3810).value.timer
              == Some(Timer(EndQuestion, SettleDelayMs))
  {
    var rm, qs := SampleHostAnswered(), SampleQuestions();
    assert FindParticipant(rm.participants, "B") == Some(1);
    assert Text.Lower("5")[0] != Text.Lower("4")[0];
    var after := SampleBothAnswered().participants;
    assert AnsweredIndex(after[0].answers, 0) by { assert after[0].answers[0].questionIndex == 0; }
    assert AnsweredIndex(after[1].answers, 0) by { assert after[1].answers[0].questionIndex == 0; }
    assert after[1..] == [after[1]];
    assert AnsweredCount(after, 0) == 2;
    assert rm.participants[1 := after[1]] == after;
    var st := SubmitAnswer(Some(rm), qs, "B", "5", 800, 3810);
    assert st.Success?;
    assert SubmissionAccepted(rm, qs, "B", "5", 800, 3810, st.value);
    var ps' := st.value.room.participants;
    assert |ps'| == 2;
    assert ps'[0] == after[0];
    assert ps'[1].answers == after[1].answers;
    assert ps'[1] == after[1];
    assert ps' == after;
  }

  /** The early end moves to review, and the review's timer finishes the one-question quiz. */
  lemma SampleCloses()
    ensures Step(SampleBothAnswered(), SampleQuestions(), EndQuestionFires, 5810)
              == Some(SampleBothAnswered().(status := QuestionReview))
    ensures Step(SampleBothAnswered().(status := QuestionReview), SampleQuestions(), NextQuestionFires, 10810)
              == Some(SampleFinished())
  {
  }

  /** The finished room ranks the host first with 150 points. */
  lemma SampleRanking()
    ensures Leaderboard(SampleFinished().participants)[0] == LeaderboardEntry(1, "A", "Ann", 150)
  {
    UniqueLeaderFirst(SampleFinished().participants, 0);
  }

  /**
   * One question, two participants. The host starts; both answer, the host
   * correctly at once and the guest wrongly, and the second answer arms the
   * early end. The review's timer then finishes the quiz directly, with the
   * host ranked first on 150 points and the guest on 0.
   */
  lemma OneQuestionSession()
    ensures Run(SampleRoom(), SampleQuestions(), SampleEvents()) == Some(SampleFinished())
  {
    var qs := SampleQuestions();
    var starting := SampleRoom().(status := Starting, startedAt := Some(10));
    var review := SampleBothAnswered().(status := QuestionReview);
    var t5 := [(NextQuestionFires, 10810)];
    var t4 := [(EndQuestionFires, 5810)] + t5;
    var t3 := [(AnswerRequest("B", "5"), 3810)] + t4;
    var t2 := [(AnswerRequest("A", "4"), 3010)] + t3;
    var t1 := [(NextQuestionFires, 3010)] + t2;
    assert SampleEvents() == [(StartRequest("A"), 10)] + t1;
    assert Run(SampleFinished(), qs, []) == Some(SampleFinished());
    SampleOpens();
    SampleHostAnswers();
    SampleGuestAnswers();
    SampleCloses();
    RunFirst(review, qs, NextQuestionFires, 10810, [], SampleFinished());
    RunFirst(SampleBothAnswered(), qs, EndQuestionFires, 5810, t5, review);
    RunFirst(SampleHostAnswered(), qs, AnswerRequest("B", "5"), 3810, t4, SampleBothAnswered());
    RunFirst(SampleActive(), qs, AnswerRequest("A", "4"), 3010, t3, SampleHostAnswered());
    RunFirst(starting, qs, NextQuestionFires, 3010, t2, SampleActive());
    RunFirst(SampleRoom(), qs, StartRequest("A"), 10, t1, starting);
  }

  /** Running a sequence whose first event is enabled is running the rest from that event's result. */
  lemma RunFirst(room: Room, qs: seq<QuizContent.Question>, ev: Event, now: int, rest: seq<(Event, int)>, next: Room)
    requires Enabled(room, ev) && Step(room, qs, ev, now) == Some(next)
    ensures Run(room, qs, [(ev, now)] + rest) == Run(next, qs, rest)
  {
    assert ([(ev, now)] + rest)[1..] == rest;
  }
}

=== FILE: stable_sort.dfy ===
/**
 * A stable sort by an integer key, largest key first.
 *
 * `Array.prototype.sort` is stable since ECMAScript 2019, so sorting by
 * descending key keeps equal-key elements in their original order. A
 * sequence is such a stable reordering exactly when it is non-increasing in
 * the key and, for every key value, the elements carrying that value appear
 * in the same order as in the input (`WithKey` below).
 */
module StableSort {

  /** Keys never increase from left to right. */
  predicate NonIncreasing<T>(s: seq<T>, key: T -> int)
  {
    forall i, j :: 0 <= i < j < |s| ==> key(s[i]) >= key(s[j])
  }

  /** The elements of `s` whose key is `k`, in their order in `s`. */
  function WithKey<T>(s: seq<T>, key: T -> int, k: int): seq<T>
  {
    if |s| == 0 then []
    else (if key(s[0]) == k then [s[0]] else []) + WithKey(s[1..], key, k)
  }

  /** `t` is `s` stably reordered by descending key. */
  ghost predicate IsStableDesc<T>(s: seq<T>, t: seq<T>, key: T -> int)
  {
    && NonIncreasing(t, key)
    && forall k :: WithKey(t, key, k) == WithKey(s, key, k)
  }

  /** Puts `x` before the first element whose key is not larger than its own. */
  function Insert<T>(x: T, s: seq<T>, key: T -> int): (r: seq<T>)
    requires NonIncreasing(s, key)
    ensures NonIncreasing(r, key)
    ensures multiset(r) == multiset([x] + s)
    ensures |r| == |s| + 1
  {
    if |s| == 0 then [x]
    else if key(x) >= key(s[0]) then [x] + s
    else
      var t := Insert(x, s[1..], key);
      assert s == [s[0]] + s[1..];
      HeadBoundsInsert(x, s, t, key);
      ConsNonIncreasing(s[0], t, key);
      assert multiset([s[0]] + t) == multiset([s[0]]) + multiset([x] + s[1..]);
      [s[0]] + t
  }

  /** What `x` is inserted into lies below the head that `x` goes after. */
  lemma HeadBoundsInsert<T>(x: T, s: seq<T>, t: seq<T>, key: T -> int)
    requires NonIncreasing(s, key) && |s| > 0 && key(x) < key(s[0])
    requires multiset(t) == multiset([x] + s[1..])
    ensures forall j :: 0 <= j < |t| ==> key(t[j]) <= key(s[0])
  {
    forall j | 0 <= j < |t| ensures key(t[j]) <= key(s[0]) {
      assert t[j] in multiset([x] + s[1..]);
    }
  }

  lemma ConsNonIncreasing<T>(h: T, t: seq<T>, key: T -> int)
    requires NonIncreasing(t, key)
    requires forall j :: 0 <= j < |t| ==> key(t[j]) <= key(h)
    ensures NonIncreasing([h] + t, key)
  {
    var r := [h] + t;
    forall i, j | 0 <= i < j < |r| ensures key(r[i]) >= key(r[j]) {
      assert r[j] == t[j - 1];
      if i > 0 {
        assert r[i] == t[i - 1];
      }
    }
  }

  /** Sorts by descending key, earlier elements first among equal keys. */
  function SortDesc<T>(s: seq<T>, key: T -> int): (r: seq<T>)
    ensures IsStableDesc(s, r, key)
    ensures multiset(r) == multiset(s)
    ensures |r| == |s|
  {
    if |s| == 0 then []
    else
      var rest := SortDesc(s[1..], key);
      var r := Insert(s[0], rest, key);
      forall k ensures WithKey(r, key, k) == WithKey(s, key, k) {
        InsertWithKey(s[0], rest, key, k);
        WithKeyCons(s[0], rest, key, k);
        WithKeyCons(s[0], s[1..], key, k);
        assert s == [s[0]] + s[1..];
      }
      assert s == [s[0]] + s[1..];
      r
  }

  lemma WithKeyCons<T>(x: T, s: seq<T>, key: T -> int, k: int)
    ensures WithKey([x] + s, key, k) == (if key(x) == k then [x] else []) + WithKey(s, key, k)
  {
    assert ([x] + s)[1..] == s;
  }

  /** Inserting `x` leaves every key class as if `x` had been put in front. */
  lemma {:induction false} InsertWithKey<T>(x: T, s: seq<T>, key: T -> int, k: int)
    requires NonIncreasing(s, key)
    ensures WithKey(Insert(x, s, key), key, k) == WithKey([x] + s, key, k)
    decreases |s|
  {
    WithKeyCons(x, s, key, k);
    if |s| > 0 && key(x) < key(s[0]) {
      var s0, t := s[0], s[1..];
      assert s == [s0] + t;
      assert NonIncreasing(t, key);
      var cx := if key(x) == k then [x] else [];
      var c0 := if key(s0) == k then [s0] else [];
      assert cx == [] || c0 == [];
      calc {
        WithKey(Insert(x, s, key), key, k);
        { assert Insert(x, s, key) == [s0] + Insert(x, t, key); }
        WithKey([s0] + Insert(x, t, key), key, k);
        { WithKeyCons(s0, Insert(x, t, key), key, k); }
        c0 + WithKey(Insert(x, t, key), key, k);
        { InsertWithKey(x, t, key, k); }
        c0 + WithKey([x] + t, key, k);
        { WithKeyCons(x, t, key, k); }
        c0 + (cx + WithKey(t, key, k));
        { SwapDisjoint(c0, cx, WithKey(t, key, k)); }
        cx + (c0 + WithKey(t, key, k));
        { WithKeyCons(s0, t, key, k); }
        cx + WithKey(s, key, k);
      }
    }
  }

  lemma SwapDisjoint<T>(a: seq<T>, b: seq<T>, w: seq<T>)
    requires a == [] || b == []
    ensures a + (b + w) == b + (a + w)
  {
    if a == [] {
      assert a + (b + w) == b + w == b + (a + w);
    } else {
      assert a + (b + w) == a + w == b + (a + w);
    }
  }

  /** A prefix holds no element more often than the whole sequence. */
  lemma PrefixSubMultiset<T>(t: seq<T>, n: nat)
    requires n <= |t|
    ensures multiset(t[..n]) <= multiset(t)
  {
    assert t == t[..n] + t[n..];
    assert multiset(t) == multiset(t[..n]) + multiset(t[n..]);
  }

  /**
   * Cutting a descending sequence after `n` elements keeps the largest keys:
   * an element left out has a key no larger than any element kept.
   */
  lemma PrefixKeepsLargest<T>(t: seq<T>, key: T -> int, n: nat, x: T)
    requires NonIncreasing(t, key) && n <= |t|
    requires x in t && x !in t[..n]
    ensures forall j :: 0 <= j < n ==> key(t[j]) >= key(x)
  {
    var m :| 0 <= m < |t| && t[m] == x;
    assert m >= n;
  }

  /** An element of `s` shows up in its key class. */
  lemma {:induction false} WithKeyHas<T>(s: seq<T>, key: T -> int, i: int)
    requires 0 <= i < |s|
    ensures s[i] in WithKey(s, key, key(s[i]))
    decreases i
  {
    if i > 0 {
      WithKeyHas(s[1..], key, i - 1);
    }
  }

  /** Every element of a key class comes from `s` and carries that key. */
  lemma {:induction false} WithKeyFrom<T>(s: seq<T>, key: T -> int, k: int, y: T)
    requires y in WithKey(s, key, k)
    ensures y in s && key(y) == k
    decreases |s|
  {
    if |s| > 0 && !(key(s[0]) == k && y == s[0]) {
      WithKeyFrom(s[1..], key, k, y);
    }
  }

  /**
   * The stable descending order is unique: any sequence that is ordered by
   * descending key and keeps every key class in input order is `SortDesc`.
   */
  lemma {:induction false} StableDescUnique<T>(s: seq<T>, t: seq<T>, key: T -> int)
    requires IsStableDesc(s, t, key)
    ensures t == SortDesc(s, key)
  {
    SameClassesEqual(t, SortDesc(s, key), key);
  }

  lemma {:induction false} SameClassesEqual<T>(a: seq<T>, b: seq<T>, key: T -> int)
    requires NonIncreasing(a, key) && NonIncreasing(b, key)
    requires forall k :: WithKey(a, key, k) == WithKey(b, key, k)
    ensures a == b
    decreases |a| + |b|
  {
    if |a| == 0 && |b| == 0 {
      return;
    }
    if |a| == 0 {
      WithKeyHas(b, key, 0);
      assert false;
    }
    if |b| == 0 {
      WithKeyHas(a, key, 0);
      assert false;
    }
    WithKeyHas(a, key, 0);
    WithKeyFrom(b, key, key(a[0]), a[0]);
    WithKeyHas(b, key, 0);
    WithKeyFrom(a, key, key(b[0]), b[0]);
    assert key(a[0]) == key(b[0]);
    var m := key(a[0]);
    assert WithKey(a, key, m)[0] == a[0];
    assert WithKey(b, key, m)[0] == b[0];
    assert a[0] == b[0];
    forall k ensures WithKey(a[1..], key, k) == WithKey(b[1..], key, k) {
      var c := if m == k then [a[0]] else [];
      var wa, wb := WithKey(a[1..], key, k), WithKey(b[1..], key, k);
      assert WithKey(a, key, k) == c + wa;
      assert WithKey(b, key, k) == c + wb;
      assert wa == (c + wa)[|c|..];
      assert wb == (c + wb)[|c|..];
    }
    SameClassesEqual(a[1..], b[1..], key);
    assert a == [a[0]] + a[1..] && b == [b[0]] + b[1..];
  }
}

=== FILE: text.dfy ===
/**
 * The string primitives the quiz back end relies on: JavaScript's
 * `String.prototype.trim`, `toLowerCase` and `toUpperCase`.
 * Case mapping is modelled on the ASCII letters only.
 */
module Text {

  /** JavaScript's WhiteSpace and LineTerminator characters, the set `trim` removes. */
  predicate IsWhitespace(c: char)
  {
    || c == ' ' || c == '\t' || c == '\n' || c == '\r'
    || c == '\U{000B}' || c == '\U{000C}' || c == '\U{00A0}' || c == '\U{1680}'
    || ('\U{2000}' <= c <= '\U{200A}')
    || c == '\U{2028}' || c == '\U{2029}' || c == '\U{202F}' || c == '\U{205F}'
    || c == '\U{3000}' || c == '\U{FEFF}'
  }

  predicate AllWhitespace(s: string)
  {
    forall i :: 0 <= i < |s| ==> IsWhitespace(s[i])
  }

  /** No leading and no trailing whitespace. */
  predicate IsTrimmed(s: string)
  {
    |s| > 0 ==> !IsWhitespace(s[0]) && !IsWhitespace(s[|s| - 1])
  }

  /** Drops the leading whitespace: the result is the suffix that starts at the first non-blank. */
  function TrimStart(s: string): (r: string)
    ensures |r| <= |s| && r == s[|s| - |r|..]
    ensures AllWhitespace(s[..|s| - |r|])
    ensures |r| > 0 ==> !IsWhitespace(r[0])
  {
    if |s| > 0 && IsWhitespace(s[0]) then TrimStart(s[1..]) else s
  }

  /** Drops the trailing whitespace: the result is the prefix that ends at the last non-blank. */
  function TrimEnd(s: string): (r: string)
    ensures |r| <= |s| && r == s[..|r|]
    ensures AllWhitespace(s[|r|..])
    ensures |r| > 0 ==> !IsWhitespace(r[|r| - 1])
  {
    if |s| > 0 && IsWhitespace(s[|s| - 1]) then TrimEnd(s[..|s| - 1]) else s
  }

  /** `String.prototype.trim`. */
  function Trim(s: string): (r: string)
    ensures IsTrimmed(r)
    ensures |r| <= |s|
  {
    var t := TrimStart(s);
    var r := TrimEnd(t);
    assert |r| > 0 ==> r[0] == t[0];
    r
  }

  /** Trimming leaves an already trimmed string alone, so it is idempotent. */
  lemma TrimOfTrimmed(s: string)
    requires IsTrimmed(s)
    ensures Trim(s) == s
  {
  }

  lemma TrimIdempotent(s: string)
    ensures Trim(Trim(s)) == Trim(s)
  {
    TrimOfTrimmed(Trim(s));
  }

  /** Whitespace padding on either side does not change what `trim` returns. */
  lemma TrimIgnoresPadding(before: string, s: string, after: string)
    requires AllWhitespace(before) && AllWhitespace(after)
    ensures Trim(before + s + after) == Trim(s)
  {
    assert before + s + after == before + (s + after);
    TrimIgnoresLeading(before, s + after);
    TrimIgnoresTrailing(s, after);
  }

  lemma TrimIgnoresLeading(before: string, s: string)
    requires AllWhitespace(before)
    ensures Trim(before + s) == Trim(s)
  {
    TrimStartPadding(before, s);
  }

  lemma TrimIgnoresTrailing(s: string, after: string)
    requires AllWhitespace(after)
    ensures Trim(s + after) == Trim(s)
  {
    TrimStartAppend(s, after);
    TrimEndPadding(TrimStart(s), after);
  }

  lemma {:induction false} TrimStartPadding(before: string, s: string)
    requires AllWhitespace(before)
    ensures TrimStart(before + s) == TrimStart(s)
    decreases |before|
  {
    if |before| > 0 {
      assert (before + s)[1..] == before[1..] + s;
      TrimStartPadding(before[1..], s);
    } else {
      assert before + s == s;
    }
  }

  lemma {:induction false} TrimStartAppend(s: string, after: string)
    requires AllWhitespace(after)
    ensures TrimStart(s + after) == TrimStart(s) + after
            || (TrimStart(s) == [] && AllWhitespace(TrimStart(s + after)))
    ensures TrimEnd(TrimStart(s + after)) == TrimEnd(TrimStart(s) + after)
    decreases |s|
  {
    if |s| == 0 {
      assert s + after == after;
    } else if IsWhitespace(s[0]) {
      assert (s + after)[1..] == s[1..] + after;
      TrimStartAppend(s[1..], after);
    } else {
    }
  }

  lemma {:induction false} TrimEndPadding(s: string, after: string)
    requires AllWhitespace(after)
    ensures TrimEnd(s + after) == TrimEnd(s)
    decreases |after|
  {
    if |after| > 0 {
      var k := |after| - 1;
      assert (s + after)[..|s + after| - 1] == s + after[..k];
      TrimEndPadding(s, after[..k]);
    } else {
      assert s + after == s;
    }
  }

  /** `toLowerCase` on one character (ASCII letters only). */
  function LowerChar(c: char): char
  {
    if 'A' <= c <= 'Z' then (c as int + 32) as char else c
  }

  /** `toUpperCase` on one character (ASCII letters only). */
  function UpperChar(c: char): char
  {
    if 'a' <= c <= 'z' then (c as int - 32) as char else c
  }

  function Lower(s: string): (r: string)
    ensures |r| == |s|
    ensures forall i :: 0 <= i < |s| ==> r[i] == LowerChar(s[i])
  {
    seq(|s|, i requires 0 <= i < |s| => LowerChar(s[i]))
  }

  function Upper(s: string): (r: string)
    ensures |r| == |s|
    ensures forall i :: 0 <= i < |s| ==> r[i] == UpperChar(s[i])
  {
    seq(|s|, i requires 0 <= i < |s| => UpperChar(s[i]))
  }

  /** Lower-casing leaves no upper-case letter behind, so doing it twice changes nothing. */
  lemma LowerIdempotent(s: string)
    ensures forall i :: 0 <= i < |s| ==> !('A' <= Lower(s)[i] <= 'Z')
    ensures Lower(Lower(s)) == Lower(s)
  {
  }

  lemma UpperIdempotent(s: string)
    ensures forall i :: 0 <= i < |s| ==> !('a' <= Upper(s)[i] <= 'z')
    ensures Upper(Upper(s)) == Upper(s)
  {
  }

  /** Lower-casing forgets an earlier upper-casing. */
  lemma LowerOfUpper(s: string)
    ensures Lower(Upper(s)) == Lower(s)
  {
    forall i | 0 <= i < |s| ensures LowerChar(UpperChar(s[i])) == LowerChar(s[i]) {
    }
  }

  /** Case folding never turns a blank into a non-blank or back, so trim and lower commute. */
  lemma {:induction false} LowerTrimCommute(s: string)
    ensures Lower(Trim(s)) == Trim(Lower(s))
  {
    LowerTrimStart(s);
    LowerTrimEnd(TrimStart(s));
  }

  lemma LowerKeepsBlanks(c: char)
    ensures IsWhitespace(LowerChar(c)) == IsWhitespace(c)
  {
  }

  lemma {:induction false} LowerTrimStart(s: string)
    ensures Lower(TrimStart(s)) == TrimStart(Lower(s))
    decreases |s|
  {
    if |s| > 0 {
      var l := Lower(s);
      assert l[0] == LowerChar(s[0]);
      LowerKeepsBlanks(s[0]);
      if IsWhitespace(s[0]) {
        assert l[1..] == Lower(s[1..]);
        LowerTrimStart(s[1..]);
      }
    }
  }

  lemma {:induction false} LowerTrimEnd(s: string)
    ensures Lower(TrimEnd(s)) == TrimEnd(Lower(s))
    decreases |s|
  {
    if |s| > 0 {
      var l := Lower(s);
      assert l[|s| - 1] == LowerChar(s[|s| - 1]);
      LowerKeepsBlanks(s[|s| - 1]);
      if IsWhitespace(s[|s| - 1]) {
        assert l[..|s| - 1] == Lower(s[..|s| - 1]);
        LowerTrimEnd(s[..|s| - 1]);
      }
    }
  }
}

=== FILE: validation.dfy ===
/** Validation of a quiz submitted for registration (quiz-back-end/routes/admin.js). */
module QuizValidation {
  import opened Wrappers

  /** A question as it arrives in the request body; any field may be missing. */
  datatype QuestionPayload = QuestionPayload(
    question: Option<string>,
    qtype: Option<string>,
    options: Option<seq<string>>)

  /** `questions` is `None` when the body's field is missing or not an array. */
  datatype QuizPayload = QuizPayload(title: Option<string>, questions: Option<seq<QuestionPayload>>)

  datatype ValidationError =
    | MissingTitleOrQuestions
    | MissingQuestionOrType(index: int)
    | InvalidType(index: int)
    | McqNeedsOptions(index: int)

  /** The question types the route accepts. */
  const QuestionTypes: seq<string> := ["MCQ", "text", "boolean"]

  /** JavaScript truthiness of a string field. */
  predicate Truthy(v: Option<string>)
  {
    v.Some? && v.value != ""
  }

  /** The body-level check: a title and a non-empty `questions` array. */
  predicate ShapeOk(p: QuizPayload)
  {
    Truthy(p.title) && p.questions.Some? && |p.questions.value| > 0
  }

  /** What a single question must satisfy. */
  predicate QuestionOk(q: QuestionPayload)
  {
    && Truthy(q.question)
    && Truthy(q.qtype)
    && q.qtype.value in QuestionTypes
    && (q.qtype.value == "MCQ" ==> q.options.Some? && |q.options.value| >= 2)
  }

  /** The checks on question `i`, in the route's order; `None` when it passes. */
  function QuestionProblem(q: QuestionPayload, i: int): (r: Option<ValidationError>)
    ensures r.None? <==> QuestionOk(q)
    ensures r.Some? ==> !r.value.MissingTitleOrQuestions? && r.value.index == i
  {
    if !Truthy(q.question) || !Truthy(q.qtype) then Some(MissingQuestionOrType(i))
    else if q.qtype.value !in QuestionTypes then Some(InvalidType(i))
    else if q.qtype.value == "MCQ" && (q.options.None? || |q.options.value| < 2) then Some(McqNeedsOptions(i))
    else None
  }

  /**
   * The register-quiz checks: the body shape first, then each question in
   * index order; the first failure is reported, and the payload is accepted
   * (`None`) exactly when every question passes.
   */
  method Validate(p: QuizPayload) returns (r: Option<ValidationError>)
    ensures !ShapeOk(p) ==> r == Some(MissingTitleOrQuestions)
    ensures ShapeOk(p) ==> (r.None? <==> forall i :: 0 <= i < |p.questions.value| ==> QuestionOk(p.questions.value[i]))
    ensures ShapeOk(p) && r.Some? ==>
      exists i :: 0 <= i < |p.questions.value|
                  && r == QuestionProblem(p.questions.value[i], i)
                  && !QuestionOk(p.questions.value[i])
                  && forall j :: 0 <= j < i ==> QuestionOk(p.questions.value[j])
  {
    if !ShapeOk(p) {
      return Some(MissingTitleOrQuestions);
    }
    var qs := p.questions.value;
    var i := 0;
    while i < |qs|
      invariant 0 <= i <= |qs|
      invariant forall j :: 0 <= j < i ==> QuestionOk(qs[j])
    {
      var problem := QuestionProblem(qs[i], i);
      if problem.Some? {
        return problem;
      }
      i := i + 1;
    }
    return None;
  }
}

=== FILE: wrappers.dfy ===
/** Failure-carrying result types shared by every module of the model. */
module Wrappers {

  /** A value that may be absent: JavaScript's `undefined`/`null` for a field. */
  datatype Option<+T> = None | Some(value: T) {

    /** Returns the value, or `default` when absent (JavaScript's `v || default` on arrays). */
    function GetOr(default: T): T
    {
      match this
      case Some(v) => v
      case None => default
    }
  }

  /** Either a successful value or the error an operation reports. */
  datatype Result<+R, +E> = Success(value: R) | Failure(error: E)
}
